=== FILE: README.md ===
# KBT mesh-edit session and helpers, in Dafny

This project models the core of the KBT Blender add-on. Mesh geometry, drawing and Blender's own internals stay opaque. The model covers:

- **The mesh-edit session** `BmeshEditor` (`ops/demo.py`). It keeps an original snapshot of one mesh object and a bounded, first-in first-out list of snapshot backups (`undo_limit = 32`). Its operations are `validator`, `ensure_bmesh`, `restore`, `update`, `save`, `undo` and `close`. The host is abstract state:
  - a registry of mesh datablocks, where a removed one leaves an empty slot;
  - the target object, with its uid, type and edit-mode flag, the content of its mesh datablock (`obj.data`) and that of its edit mesh, which in edit mode may hold edits not yet written back;
  - the host's uid counter.
- **The modal bevel tool** `SimpleModalOperator`, built on the session. `bmesh.ops.bevel` and the edge-selection test are opaque functions that the caller supplies.
- **The R&D modal operator** (`ops/rnd_modal.py`), an `ESC`/`RET` state machine. It uses the `STATUS` flag enum and the draw-handle helpers of `utils/modal.py`.
- **The two handler registries** of `utils/handlers.py`. `uuid4` key generation is a counter that never repeats a key. What the host's `draw_handler_add` does (hand out a handle, return something falsy, or raise) is a parameter of the call.
- **Pure helpers:**
  - variable-name formatting with its getter and setter (`utils/props.py`);
  - the interleaving generator (`utils/algos.py`);
  - rectangle and region containment (`utils/labels.py`, `utils/screen.py`);
  - the enum fallbacks, the property value and label text, the widget lock and the window update (`utils/labels.py`);
  - operator-path strings and the module-name filter (`utils/modules.py`);
  - `clamp_value` and `remap_value` over `real` (`utils/maths.py`).

The model follows the code as written, including where the code does less than its comments or names suggest:

- **A fresh session never validates.** `BM` starts as `None` and `ensure_bmesh` returns false without a live BMesh. So every operation that validates first fails on a new session, and the modal tool cancels on its first event.
- **An empty edge selection ends the tool.** The frame is not skipped.
- **`close` cannot be called twice.** It deletes the session's attributes, so a second call raises `AttributeError`.
- **Only edit-mode edits reach the object.** In object mode, `validator` rebuilds the live BMesh from the object's mesh data on every call. The `update` that follows a `restore` or a bevel therefore writes back the mesh it just read. Only in edit mode, where the BMesh wraps the edit mesh, do restores and bevels reach the object.
- **The original snapshot is `obj.data` as it stands.** The constructor copies the datablock without `update_from_editmode`, so edit-mode edits not yet written back are not in it. `save` does write them back before each copy.
- **Enum tests raise on non-members.** `ShaderHandler.add` tests `space in SPACE_TYPES` and the like. On Python 3.8 to 3.11, the versions Blender ships, such a test raises `TypeError` when the value is not an enum member at all, and is false for a member of another enum. The model follows those versions; from Python 3.12 the test would be false instead.
- **`ShaderHandler.remove` keeps its `handle`.** It clears an unused `draw_handle` attribute instead.
- **`Window.update` never resets the status.** Once `LOCKED`, a window stays `LOCKED`.
- **Widget updates never fail.** Every `update` of an element, row or box returns true, so a locked widget is never released by `Window.update`.

Order-preserving selections (the list comprehension of `utils/modules.py`, `del` on the load-pre table, the handlers `load_pre_callback` fires) are stated with `Seqs.IsFilter`: the result is a subsequence of the input and holds every element that passes the test exactly as often as the input does, and no other. `Seqs.FilterUnique` proves that this determines the result.

## Model

| member | source | states |
|---|---|---|
| MeshEditor.Release | ops/demo.py:133-139 | a backup is freed exactly when it is still in the registry and its uid is neither the object's nor the original's; otherwise the host is unchanged, and no other datablock changes |
| MeshEditor.ReleaseAll | ops/demo.py:156-160 | after the loop of `close`, each backup slot is empty exactly when it was disposable; every other slot, the target and the uid counter are unchanged |
| MeshEditor.Begin | ops/demo.py:46-63 | an object whose type is not `'MESH'` raises `AttributeError`; otherwise the session starts with limit 32, the object's uid, no backups and no live BMesh, the original is a new datablock holding the object's mesh data (not its unsynced edit mesh), the old registry is a prefix of the new one, the target is untouched, and the session invariant holds |
| MeshEditor.EnsureBmesh | ops/demo.py:88-103 | succeeds iff a valid live BMesh exists, and then it mirrors the target (wrapped exactly in edit mode); an invalid BMesh is dropped; no BMesh leaves everything unchanged; the host is never touched |
| MeshEditor.Validator | ops/demo.py:65-86 | true iff the object is there with its uid and type `'MESH'`, the original is there with its uid, and a valid live BMesh exists; on success the BMesh mirrors the target; the host is never touched |
| MeshEditor.Restore | ops/demo.py:105-111 | succeeds iff validation does; then the live content is the last backup's, or the original's when there are no backups, and only the target's shown mesh may change (nothing at all in object mode); on failure the host is untouched; the invariant is kept |
| MeshEditor.Update | ops/demo.py:113-122 | succeeds iff validation does; the host is unchanged either way, and on success the live BMesh mirrors the target |
| MeshEditor.Save | ops/demo.py:124-140 | succeeds iff validation does; on success edit-mode edits are written back to the datablock, and one new datablock holding what the target showed is appended to the backups; when the history was full, the oldest entry is dropped and released, and the rest keep their order; on failure host and backups are unchanged; the invariant (history within the limit) is kept |
| MeshEditor.Push | ops/demo.py:127-139 | on a usable session: the target's edits are written back, the new datablock holds what it showed, and its handle is appended, with the oldest entry dropped and released when the history was full; the session stays usable and within the limit |
| MeshEditor.Undo | ops/demo.py:142-152 | pops the newest backup (none when empty) and releases it, whatever happens next; succeeds iff validation does; on success the live BMesh mirrors the target; the invariant is kept |
| MeshEditor.Close | ops/demo.py:154-181 | every disposable backup is freed; the original is freed exactly when its uid is not the object's; nothing else in the registry changes; in edit mode a reverting close on a usable session shows the original's content (the mesh data at construction), otherwise the target is unchanged |
| MeshEditor.CloseSession | ops/demo.py:183-190 | closing deletes the session; closing a deleted session is an `AttributeError` |
| EditorHistory.FreshSessionNeverValidates | ops/demo.py:63 | on a freshly constructed session `validator`, `update`, `restore`, `save` and `undo` all fail, and `save` stores nothing |
| EditorHistory.SaveRepeatedly | ops/demo.py:124-140 | k saves in a row on a usable session all succeed, add k datablocks and leave the history as the old history followed by the k new snapshots, minus exactly the overflow beyond the limit, oldest first |
| EditorHistory.PushWindow | ops/demo.py:131-135 | pushing into a bounded history is the same as appending everything and keeping the newest entries up to the limit |
| EditorHistory.SaveThenUndo | ops/demo.py:124-152 | `save` then `undo` succeeds, frees the snapshot `save` made and gives back the previous history (minus the oldest entry when `save` evicted one) and the previous datablocks (minus that evicted entry); in edit mode the live mesh is the restore point from before the `save` when the history had room or the limit is at least 2 (with a limit of 1 the eviction frees that restore point and `undo` falls back to the original) |
| EditorHistory.RestoreTwice | ops/demo.py:105-111 | a second `restore` right after a successful one succeeds and changes nothing |
| SimpleModal.Invoke | ops/demo.py:200-218 | in the context `poll` admits (a mesh in edit mode) the session is created without error, and the tool starts running with offset 0, the mouse remembered, an empty path and its overlay registered |
| SimpleModal.FrameUpdate | ops/demo.py:246-287 | the frame succeeds iff the session is usable and the restored base has a selected edge; the offset minus the last mouse x never changes; in edit mode a successful frame leaves the target as the base beveled by the current offset; in object mode the host is unchanged; the registry is never touched |
| SimpleModal.CloseOp | ops/demo.py:236-244 | closing removes the overlay, closes the session with revert and returns `CANCELLED` |
| SimpleModal.Modal | ops/demo.py:220-234 | the tool ends iff the frame fails or the key is `ESC`, and then it is cancelled with the session closed with revert; a mouse move is appended to the path; otherwise the tool runs on |
| SimpleModal.OffsetTelescopes | ops/demo.py:207-208 | while the tool runs, the offset is the starting offset plus the last mouse x minus the starting mouse x |
| SimpleModal.InvokedRunEnds | ops/demo.py:204-244 | every non-empty run of a tool started by `invoke` ends cancelled, with the target unchanged and the original snapshot freed, so the offset is never observed on it |
| SimpleModal.NoAccumulation | ops/demo.py:255-285 | after two successful edit-mode frames the target is the base beveled once, by the second frame's offset |
| SimpleModal.FirstEventCancels | ops/demo.py:220-244 | the tool as written cancels on its first event, leaving the target unchanged and the original snapshot freed |
| Handlers.Setup | utils/handlers.py:120-126 | raises exactly when the host's `draw_handler_add` raises, with its error (the call is unguarded); otherwise succeeds and becomes valid iff the host returns a handle, which is stored, and the host draws it |
| Handlers.Add | utils/handlers.py:92-100 | raises iff the callback is callable, the arguments a tuple, and either the first enum argument that is not a member of its enum is not an enum member at all (`TypeError`) or all three are members and the host's call in `setup` raises (its error); otherwise a handler is returned iff all three are members and `setup` succeeds, valid, with the given fields, under a fresh key; without one the table and the drawn set are unchanged |
| Handlers.Remove | utils/handlers.py:128-137 | the handler becomes invalid, only its own key is deleted, and its draw handle, if any, is taken off the host |
| Handlers.Wrapper | utils/handlers.py:139-143 | the callback is called, with its arguments, iff the handler is valid and the callback callable |
| Handlers.RemoveAllHandles | utils/handlers.py:103-108 | the table ends empty and the host loses exactly the draw handles the stored handlers held |
| Handlers.AddThenRemove | utils/handlers.py:92-137 | removing what `add` stored gives the table back, the host loses the new handle again, and the removed handler no longer calls back |
| Handlers.RemoveKeepsOthers | utils/handlers.py:135-137 | removing one handler leaves every other entry as it was |
| Handlers.Register | utils/handlers.py:161-164 | the callback is in the host list afterwards, appended only if it was missing |
| Handlers.Unregister | utils/handlers.py:166-169 | the first occurrence of the callback is cut out, so every other entry keeps its place and order; a list without it is unchanged |
| Handlers.RegisterOnce | utils/handlers.py:161-169 | `register` is idempotent and leaves the callback exactly once; `unregister` then takes it out and keeps everything else |
| Handlers.LoadPreAdd | utils/handlers.py:171-183 | a handler is stored, valid, under a fresh key iff the callback is callable and the arguments are a tuple; otherwise nothing is stored |
| Handlers.LoadPreRemove | utils/handlers.py:185-188 | the handler becomes invalid, the table becomes the in-order filter that drops its key, stays well formed and keeps every other entry |
| Handlers.LoadPreRemoveFilters | utils/handlers.py:185-188 | the table after `remove` holds exactly the entries under other keys, each as often as before, in their order |
| Handlers.LoadPreCallback | utils/handlers.py:152-159 | one call per valid handler with a callable callback, in table order, with that handler's callback and arguments |
| Handlers.FiringIsFilter | utils/handlers.py:155-159 | the handlers the callback fires are exactly the valid ones with callable callbacks, each as often as stored, in table order |
| Handlers.AddedHandlerIsCalled | utils/handlers.py:152-188 | after `add` the load calls everything it called before plus the new callback, and `remove` gives back the table from before the `add` |
| ModalUtils.MembersAreSingleFlags | utils/modal.py:15-20 | each `STATUS` member is a single bit, and no member lies in another |
| ModalUtils.ExitSetContents | utils/modal.py:15-20 | `FINISHED \| CANCELLED` contains exactly the members `FINISHED` and `CANCELLED` |
| ModalUtils.AddShaderHandles | utils/modal.py:26-31 | both attributes exist afterwards; a `POST_VIEW` handler for `draw_3d` and a `POST_PIXEL` one for `draw_2d` are held iff the method exists and the host gives a handle (the second only when the first `add` did not raise), and each holds the handle the host gave; an error is reported iff an `add` raises, with the first raise's error, and a raise in the first `add` leaves the registry untouched; the new keys are fresh and are all that the table gains; the host's drawn set gains exactly the held handlers' handles, which are among those it gave |
| ModalUtils.SecondRaiseKeepsFirst | utils/modal.py:28-31 | when the host raises for `draw_2d` after handing out a handle for `draw_3d`, the error leaves the 3D handler held, in the table and drawn by the host, and no 2D handler |
| ModalUtils.RemoveShaderHandles | utils/modal.py:34-40 | `remove` is called exactly on the attributes that hold a handler: they become invalid, their keys leave the table and their draw handles leave the host's drawn set; other attributes are untouched |
| ModalUtils.AddThenRemoveHandles | utils/modal.py:26-40 | attaching and then detaching an operator's handlers gives the table back, and the host's drawn set too when the handles it gave were new to it |
| RndModal.Invoke | ops/rnd_modal.py:31-38 | status `RUNNING`, result `RUNNING_MODAL`, both draw callbacks attached to fresh keys, and the host draws exactly the handles it gave for them |
| RndModal.NextStatus | ops/rnd_modal.py:43-49 | the status is `CANCELLED` iff `ESC` is pressed, `FINISHED` iff `RET` is pressed, and `RUNNING` otherwise |
| RndModal.Close | ops/rnd_modal.py:57-63 | the handlers are detached from the table and their draw handles from the host, and the result is `CANCELLED` iff the status is `CANCELLED`, otherwise `FINISHED` |
| RndModal.Modal | ops/rnd_modal.py:41-54 | the result is `CANCELLED` iff `ESC` is pressed and `FINISHED` iff `RET` is pressed, and both detach the handlers from the table and the host; any other event keeps running with the registry unchanged |
| RndModal.ModalForgetsStatus | ops/rnd_modal.py:43 | what `modal` does does not depend on the status before the call |
| RndModal.InvokeThenExit | ops/rnd_modal.py:31-63 | invoking and then pressing `ESC` or `RET` ends the operator and leaves the handler table as it was, and the host's drawn set too when the handles it gave were new to it |
| Props.FormatVarName | utils/props.py:30-35 | the output is made of `[0-9A-Z_]`, never starts with a digit, and is the input upper-cased and sanitized character by character, with `_` in front exactly when the first character is a digit |
| Props.FormatCharacters | utils/props.py:31-33 | lower-case letters are upper-cased, not replaced; `[0-9A-Z_]` is kept; anything else becomes `_` |
| Props.FormatFixesValidNames | utils/props.py:30-35 | a name already of `[0-9A-Z_]` not starting with a digit is left as it is |
| Props.FormatIdempotent | utils/props.py:30-35 | formatting twice is formatting once |
| Props.GetVarName | utils/props.py:38-42 | the stored name, or `"VAR"` when it is absent or empty |
| Props.SetVarName | utils/props.py:45-46 | the formatted name is stored, and no other key changes |
| Props.SetThenGet | utils/props.py:38-46 | reading after writing gives the formatted name (`"VAR"` for the empty string), and writing back what was read changes nothing |
| Algos.YieldItemWithFrequency | utils/algos.py:11-16 | `parts <= 0` and `len(items) // parts == 0` are the two `ValueError`s; the stream is produced exactly when `0 < parts <= len(items)` |
| Algos.InterleaveItems | utils/algos.py:17-18 | dropping the interrupters gives the items back, in order |
| Algos.ItemPosition | utils/algos.py:17-20 | item i sits after the interrupters before it, and an interrupter follows it iff its index is a multiple of n |
| Algos.BreaksCeil | utils/algos.py:19-20 | the indices below k include ceil(k / n) multiples of n |
| Algos.YieldShape | utils/algos.py:11-20 | on success the stream has `len(items) + ceil(len(items) / n)` entries, and the first item is followed by an interrupter |
| Labels.EnsureAnchor | utils/labels.py:57-60 | a member is returned as is, anything else gives `MID_C` |
| Labels.EnsureDType | utils/labels.py:62-65 | a member is returned as is, anything else gives `DTYPE.NONE` |
| Labels.EnsureEType | utils/labels.py:67-70 | a member is returned as is, anything else gives `ETYPE.NONE` |
| Labels.EnsureIsProjection | utils/labels.py:57-70 | each of the three fallbacks is a projection: applied to its own result it changes nothing, and a missing anchor falls back exactly as `MID_C` does |
| Labels.TestPointIntersect | utils/labels.py:212-218 | true iff `x <= p.x <= x + w` and `y <= p.y <= y + h` |
| Labels.ToQuadPoints | utils/labels.py:220-229 | the corners come bottom-left, top-left, top-right, bottom-right |
| Labels.QuadCornersInside | utils/labels.py:212-229 | every corner is inside the rectangle iff width and height are not negative |
| Labels.GetValue | utils/labels.py:169-177 | a list attribute with an in-range int index gives the element; other indices give the whole value; a missing attribute or a non-string name gives `None` |
| Labels.BoolIndexSelects | utils/labels.py:172-176 | a `bool` index selects like 0 or 1, and an out-of-range index gives the whole list |
| Labels.SetLabelText | utils/labels.py:179-199 | `""` for `NONE`; `"On"`/`"Off"` by truthiness for `BOOL`; a rendering of the value for the scalar and list types; for `VECTOR`/`COLOR`, a `TypeError` iff the value has no length, the value's tuple rendering for 2 to 4 components and the text left as it was for any other length |
| Labels.LockedWidgetActive | utils/labels.py:123-127 | true iff a box, row or element is locked; any other lock is cleared |
| Labels.RowUpdate | utils/labels.py:280-285 | a row update never fails |
| Labels.BoxUpdate | utils/labels.py:307-312 | a box update never fails |
| Labels.WindowUpdate | utils/labels.py:335-346 | records the mouse; with an active lock the status becomes `LOCKED` and the lock stays; otherwise the lock is cleared and the status kept; the status returned is the window's |
| Labels.LockedIsSticky | utils/labels.py:335-346 | once `LOCKED`, a window stays `LOCKED` through any run of updates, and an active lock is never released |
| Screen.PointWithinRegion | utils/screen.py:17-24 | false unless the arguments are a vector and a region; true only for points right of and above the corner |
| Screen.AgreesWithBounds | utils/screen.py:17-24 | the region test is exactly inclusive containment in the region's rectangle |
| Screen.OutsideEdges | utils/screen.py:19-22 | points left of, right of, below or above the region are outside it |
| Modules.CategoryAndOperator | utils/modules.py:107-111 | the category is the first kept segment if it is a known category, else `''`; the operator is non-empty iff the category is known and the second kept segment is one of its operators |
| Modules.FilterKeptIsFilter | utils/modules.py:108 | the filter keeps exactly the segments that are non-empty, not `bpy` or `ops` and not `_`-prefixed, each as often as it occurs, in path order |
| Modules.PathRoundTrip | utils/modules.py:107-111 | the path `bpy.ops.<category>.<operator>` of a known operator reads back as that category and operator |
| Modules.GetBpyOpsPyString | utils/modules.py:143-150 | a non-operator gives the empty tuple; an id without `_OT_` raises `ValueError`; otherwise the result is a `bpy.ops.` path |
| Modules.PyStringOfIdname | utils/modules.py:146-150 | `X_OT_y` gives `bpy.ops.<lower X>.y`, split at the first `_OT_` only |
| Modules.PublicRootModuleNames | utils/modules.py:24-27 | the result holds exactly the public root names of the input, with no duplicates, sorted by lower-cased name |
| Modules.Insert | utils/modules.py:27 | inserting into a list sorted by lower-cased name keeps it sorted and adds exactly the new name: the multiset grows by that one name |
| Strings.SplitJoin | utils/modules.py:108 | joining the pieces of `split` gives the string back |
| Strings.JoinSplit | utils/modules.py:108 | splitting a join of separator-free pieces gives the pieces back |
| Strings.SplitOnce | utils/modules.py:148 | the text splits around the first occurrence of the separator, and `None` is returned iff it does not occur |
| Maths.ClampValue | utils/maths.py:18-22 | the result lies between the smaller and the larger bound; a value within them is returned; one outside gives the nearer bound |
| Maths.ClampSymmetricIdempotent | utils/maths.py:20-22 | swapping the bounds changes nothing, and clamping twice is clamping once |
| Maths.RemapValue | utils/maths.py:25-29 | `min_b` for a degenerate source range; otherwise `min_a` maps to `min_b` and `max_a` to `max_b` |
| Maths.RemapRoundTrip | utils/maths.py:25-29 | remapping there and back gives the value back when neither range is degenerate |

## Left out

- **Blender geometry.** bmesh construction, normals, select-mode flushing, loop triangulation, `bmesh.ops.bevel` and `delete` are opaque. Mesh content is an uninterpreted sequence. Bevel and the selected-edge test are functions the caller supplies. The table and normal refresh helpers always return true on a valid BMesh, so they carry no branch.
- **Matrices.** The world matrices a session stores are floats and take part in no operation.
- **Dead Python references.** The model requires every backup to be a live, distinct datablock. A backup deleted behind the session's back would raise `ReferenceError` in Python, and that is not modelled.
- **Drawing and redraws.** These are not modelled: `draw_2d`, the GPU shader, `tag_redraw`, `blf` text metrics, and `Label`/`Bounds` building and drawing.
- **Printing.** `print` calls and the traceback printed when `draw_handler_remove` fails are not modelled.
- **Broken widget constructors.** `Element` and `Row.element` call constructors with missing arguments. `Row.draw` and `Box.draw` use a nonexistent `self.dt`. None of these can run, so only the update logic of widgets is modelled.
- **Labels.SetLabelText:** Python's rendering of a value (`str(int(v))`, `str(v)`, the tuple f-string) is not computed. The result records which rendering applies and to what value. Conversions that raise inside `int(...)` or `str(...)` are not modelled.
- **Strings.** Case mapping covers ASCII letters only. Python's full Unicode `upper`/`lower` (e.g. `'ß'`) is not modelled.
- **Modules.PublicRootModuleNames:** names that are equal once lower-cased may come in either order. The source sorts a set, so their order is unspecified there too.
- **Introspection.** `pkgutil`, `importlib`, `exec`, the window-manager operator history and `dir(bpy.ops)` are not modelled. Their results are inputs: the module-name list and the category-to-operators map.
- **Algos.YieldItemWithFrequency:** the generator is modelled as the whole stream it yields. Python raises its `ValueError`s at the first `next`, not at the call.
- **Aliasing.** A handler object held by a caller is a value in the model. A later `remove` through another alias is not reflected in copies held elsewhere.
- **Handlers.Remove:** the unused `draw_handle` attribute it sets is not modelled.
- **Module registration.** The module-level `register`/`unregister` of `utils/handlers.py` only chain `remove_all_handles` with the load-pre `register`/`unregister`, so they are not modelled separately.
- **The rest of `utils/maths.py`.** Vector, matrix, BVH, KD-tree and bounding-box helpers are float wrappers. `round_value_to_increment` depends on float rounding.
- **MeshEditor.Begin:** for an object whose data is not a mesh, the copy made before the `AttributeError` is a datablock of another kind. It is outside the mesh registry and is not modelled.
- **Float coordinates.** `Labels.TestPointIntersect`, `Labels.ToQuadPoints` and `Screen.PointWithinRegion` compare Blender's float coordinates; the model uses `real`, so rounding and NaN are not modelled.
- **Randomness.** `uuid4` keys are modelled as a counter that never repeats.
- **RndModal.Invoke:** takes the host's answers for the 3D view's window region as a handle or a falsy value. That space and region always have draw handlers, so `draw_handler_add` is taken not to raise there; the raising case is modelled in `ModalUtils.AddShaderHandles`.
- **Handlers.Add:** a key drawn before `setup` raises is lost with the exception; the model returns no registry on that path, so the counter's step is not recorded (keys stay fresh either way).

=== FILE: algos.dfy ===
/** The interleaving generator `yield_item_with_frequency`
    (utils/algos.py:11-20), modelled as a function returning the whole
    stream it yields, or the `ValueError` it raises. */
module Algos {
  import opened Wrappers

  /** One yielded value, tagged with where it came from: an item of the
      input, or the interrupter. */
  datatype Slot<T> = Item(value: T) | Interrupt(value: T)

  /** The interrupters the indices `a, ..., a + k - 1` emit: those that
      are multiples of `n`. */
  function Breaks(a: nat, k: nat, n: nat): nat
    requires n > 0
    decreases k
  {
    if k == 0 then 0 else (if a % n == 0 then 1 else 0) + Breaks(a + 1, k - 1, n)
  }

  /** The stream for `items`, whose first element has index `a`: each item,
      followed by the interrupter when its index is a multiple of `n`. */
  function Interleave<T>(items: seq<T>, n: nat, a: nat, interrupter: T): (r: seq<Slot<T>>)
    requires n > 0
    ensures |r| == |items| + Breaks(a, |items|, n)
    decreases |items|
  {
    if |items| == 0 then []
    else
      [Item(items[0])] + (if a % n == 0 then [Interrupt(interrupter)] else [])
        + Interleave(items[1..], n, a + 1, interrupter)
  }

  /** The stream with the interrupters dropped. */
  function Items<T>(s: seq<Slot<T>>): (r: seq<T>)
    ensures |r| <= |s|
  {
    if |s| == 0 then [] else (if s[0].Item? then [s[0].value] else []) + Items(s[1..])
  }

  /** `yield_item_with_frequency(items, parts, interrupter)`: `parts` must
      be positive and no more than the number of items; the stream puts the
      interrupter after every `n`-th item, `n = len(items) // parts`,
      starting with the first. */
  function YieldItemWithFrequency<T>(items: seq<T>, parts: int, interrupter: T): (r: Result<seq<Slot<T>>>)
    ensures parts <= 0 ==> r == Err("Parts must be greater than 0")
    ensures parts > 0 && |items| < parts ==> r == Err("Parts is greater than list length")
    ensures r.Ok? <==> 0 < parts <= |items|
  {
    if parts <= 0 then Err("Parts must be greater than 0")
    else
      var n := |items| / parts;
      assert n == 0 <==> |items| < parts by { DivZero(|items|, parts); }
      if n == 0 then Err("Parts is greater than list length")
      else Ok(Interleave(items, n, 0, interrupter))
  }

  /** Dropping the interrupters gives the items back, in order. */
  lemma {:induction false} InterleaveItems<T>(items: seq<T>, n: nat, a: nat, interrupter: T)
    requires n > 0
    ensures Items(Interleave(items, n, a, interrupter)) == items
    decreases |items|
  {
    if |items| > 0 {
      InterleaveItems(items[1..], n, a + 1, interrupter);
      var head := [Item(items[0])] + (if a % n == 0 then [Interrupt(interrupter)] else []);
      ItemsAppend(head, Interleave(items[1..], n, a + 1, interrupter));
      assert Items(head) == [items[0]] by {
        assert head[1..] == (if a % n == 0 then [Interrupt(interrupter)] else []);
        if a % n == 0 {
          assert head[1..][1..] == [];
        }
      }
      assert items == [items[0]] + items[1..];
    }
  }

  /** Dropping interrupters distributes over concatenation. */
  lemma {:induction false} ItemsAppend<T>(s: seq<Slot<T>>, t: seq<Slot<T>>)
    ensures Items(s + t) == Items(s) + Items(t)
    decreases |s|
  {
    var st := s + t;
    if |s| == 0 {
      assert st == t;
    } else {
      ItemsAppend(s[1..], t);
      assert st[0] == s[0] && st[1..] == s[1..] + t;
      var h := if s[0].Item? then [s[0].value] else [];
      assert Items(st) == h + Items(s[1..] + t);
      assert Items(s) == h + Items(s[1..]);
    }
  }

  /** Item `i` sits at position `i` plus the interrupters before it, and the
      interrupter comes right after it exactly when `a + i` is a multiple of
      `n`. */
  lemma {:induction false} ItemPosition<T>(items: seq<T>, n: nat, a: nat, interrupter: T, i: nat)
    requires n > 0 && i < |items|
    ensures i + Breaks(a, i, n) < |Interleave(items, n, a, interrupter)|
    ensures Interleave(items, n, a, interrupter)[i + Breaks(a, i, n)] == Item(items[i])
    ensures (i + Breaks(a, i, n) + 1 < |Interleave(items, n, a, interrupter)| &&
             Interleave(items, n, a, interrupter)[i + Breaks(a, i, n) + 1].Interrupt?)
        <==> (a + i) % n == 0
    decreases i
  {
    var out := Interleave(items, n, a, interrupter);
    var head := [Item(items[0])] + (if a % n == 0 then [Interrupt(interrupter)] else []);
    var tail := Interleave(items[1..], n, a + 1, interrupter);
    assert out == head + tail;
    if i == 0 {
      if a % n != 0 && 1 < |out| {
        assert out[1] == tail[0];
        assert tail[0] == Item(items[1..][0]);
      }
    } else {
      ItemPosition(items[1..], n, a + 1, interrupter, i - 1);
      var p := i - 1 + Breaks(a + 1, i - 1, n);
      assert i + Breaks(a, i, n) == p + |head|;
      assert out[p + |head|] == tail[p];
      if p + 1 < |tail| {
        assert out[p + |head| + 1] == tail[p + 1];
      }
    }
  }

  /** Counting from the back: one more index adds its own interrupter. */
  lemma {:induction false} BreaksSnoc(a: nat, k: nat, n: nat)
    requires n > 0
    ensures Breaks(a, k + 1, n) == Breaks(a, k, n) + (if (a + k) % n == 0 then 1 else 0)
    decreases k
  {
    if k > 0 {
      BreaksSnoc(a + 1, k - 1, n);
    }
  }

  /** Among `0, ..., k - 1` there are `ceil(k / n)` multiples of `n`. */
  lemma {:induction false} BreaksCeil(k: nat, n: nat)
    requires n > 0
    ensures Breaks(0, k, n) == (k + n - 1) / n
    decreases k
  {
    if k > 0 {
      BreaksCeil(k - 1, n);
      BreaksSnoc(0, k - 1, n);
      CeilStep(k - 1, n);
    }
  }

  /** `ceil((m + 1) / n) = ceil(m / n) + [m is a multiple of n]`. */
  lemma CeilStep(m: nat, n: nat)
    requires n > 0
    ensures (m + n) / n == (m + n - 1) / n + (if m % n == 0 then 1 else 0)
  {
    var q := m / n;
    var r := m % n;
    assert m == q * n + r;
    if r == 0 {
      DivUnique(m + n, n, q + 1, 0);
      DivUnique(m + n - 1, n, q, n - 1);
    } else {
      DivUnique(m + n, n, q + 1, r);
      DivUnique(m + n - 1, n, q + 1, r - 1);
    }
  }

  /** Division by a positive number is determined by quotient and
      remainder. */
  lemma DivUnique(x: int, n: int, q: int, r: int)
    requires n > 0 && 0 <= r < n && x == q * n + r
    ensures x / n == q
  {
    var q0 := x / n;
    var r0 := x % n;
    assert x == q0 * n + r0;
    var d := q0 - q;
    assert d * n == q0 * n - q * n;
    assert d * n == r - r0;
  }

  /** Floor division of a count by a positive number is zero exactly when
      the count is smaller. */
  lemma DivZero(x: nat, p: int)
    requires p > 0
    ensures x / p == 0 <==> x < p
  {
    if x < p {
      DivUnique(x, p, 0, x);
    } else {
      DivUnique(x, p, 1 + (x - p) / p, (x - p) % p);
    }
  }

  /** On success the stream holds every item once, in order, plus
      `ceil(len(items) / n)` interrupters, and the first item is always
      followed by one. */
  lemma YieldShape<T>(items: seq<T>, parts: int, interrupter: T)
    requires YieldItemWithFrequency(items, parts, interrupter).Ok?
    ensures var n := |items| / parts;
      var out := YieldItemWithFrequency(items, parts, interrupter).value;
      n > 0 && Items(out) == items && |out| == |items| + (|items| + n - 1) / n &&
      |out| >= 2 && out[0] == Item(items[0]) && out[1] == Interrupt(interrupter)
  {
    var n := |items| / parts;
    InterleaveItems(items, n, 0, interrupter);
    BreaksCeil(|items|, n);
  }
}

=== FILE: blender.dfy ===
/** The slice of the host application's operator protocol that the modal
    operators see: the event handed to `invoke`/`modal` and the status set
    they return. */
module Blender {

  /** An input event: its type (`'MOUSEMOVE'`, `'ESC'`, `'RET'`, ...), its
      value (`'PRESS'`, `'RELEASE'`, ...) and the mouse position inside the
      region. */
  datatype Event = Event(evType: string, value: string, x: int, y: int)

  /** The one-element sets a modal operator callback returns. */
  datatype OpReturn = RUNNING_MODAL | FINISHED | CANCELLED
}

=== FILE: editor_history.dfy ===
/** Properties that relate several calls on one mesh-edit session: the
    bounded history after repeated saves, save followed by undo, restore
    twice, and the session that a fresh constructor leaves. */
module EditorHistory {
  import opened Wrappers
  import opened MeshEditor

  /** The handles `a, a + 1, ..., a + k - 1`: the snapshots that `k`
      successful saves create, in order. */
  function Range(a: nat, k: nat): (r: seq<Handle>)
    ensures |r| == k
    decreases k
  {
    if k == 0 then [] else Range(a, k - 1) + [a + k - 1]
  }

  /** How many of the oldest entries `k` saves push out of the history. */
  function Dropped(n: nat, k: nat, limit: nat): nat {
    if n + k > limit then n + k - limit else 0
  }

  /** A freshly constructed session has no live BMesh, so it never
      validates, and every operation that validates first fails on it
      (ops/demo.py:63, 89-90). */
  lemma FreshSessionNeverValidates(host: Host)
    requires host.target.Some? && host.target.value.uid < host.nextUid
    requires host.target.value.objType == "MESH"
    ensures !Validator(Begin(host).value).ok && !Update(Begin(host).value).ok
    ensures !Restore(Begin(host).value).ok && !Save(Begin(host).value).ok && !Undo(Begin(host).value).ok
    ensures Save(Begin(host).value).w.ed.backups == []
  {
  }

  /** The history after pushing one snapshot under the limit: appended, and
      the oldest entry dropped when the history was full. */
  function PushBounded(b: seq<Handle>, x: Handle, limit: nat): seq<Handle> {
    var a := b + [x];
    if |a| > limit then a[1..] else a
  }

  /** The history after pushing the snapshots `m, ..., m + k - 1`. */
  function PushAll(b: seq<Handle>, m: nat, k: nat, limit: nat): seq<Handle>
    decreases k
  {
    if k == 0 then b else PushBounded(PushAll(b, m, k - 1, limit), m + k - 1, limit)
  }

  /** `k` calls of `save` in a row on a usable session.  Each succeeds and
      adds one datablock; the history ends up holding exactly the newest
      `min(n + k, limit)` entries of the old history followed by the `k`
      new snapshots, oldest first: eviction is first-in first-out and keeps
      the order of what remains (ops/demo.py:124-140). */
  method SaveRepeatedly(w: World, k: nat) returns (r: World)
    requires Wf(w) && Usable(w)
    ensures Wf(r) && Usable(r) && r.ed.undoLimit == w.ed.undoLimit
    ensures |r.host.meshes| == |w.host.meshes| + k
    ensures Dropped(|w.ed.backups|, k, w.ed.undoLimit) <= |w.ed.backups| + k
    ensures r.ed.backups == (w.ed.backups + Range(|w.host.meshes|, k))[Dropped(|w.ed.backups|, k, w.ed.undoLimit)..]
  {
    r := w;
    var i := 0;
    while i < k
      invariant 0 <= i <= k
      invariant Wf(r) && Usable(r) && r.ed.undoLimit == w.ed.undoLimit
      invariant |r.host.meshes| == |w.host.meshes| + i
      invariant r.ed.backups == PushAll(w.ed.backups, |w.host.meshes|, i, w.ed.undoLimit)
    {
      SaveOnce(r);
      r := Save(r).w;
      i := i + 1;
      PushAllStep(w.ed.backups, |w.host.meshes|, i, w.ed.undoLimit);
    }
    PushWindow(w.ed.backups, |w.host.meshes|, k, w.ed.undoLimit);
  }

  lemma PushAllStep(b: seq<Handle>, m: nat, k: nat, limit: nat)
    requires k > 0
    ensures PushAll(b, m, k, limit) == PushBounded(PushAll(b, m, k - 1, limit), m + k - 1, limit)
  {
  }

  /** One `save` on a usable session, in the terms `SavesPush` needs. */
  lemma SaveOnce(w: World)
    requires Wf(w) && Usable(w)
    ensures Usable(Save(w).w) && Save(w).w.ed.undoLimit == w.ed.undoLimit
    ensures |Save(w).w.host.meshes| == |w.host.meshes| + 1
    ensures Save(w).w.ed.backups == PushBounded(w.ed.backups, |w.host.meshes|, w.ed.undoLimit)
  {
  }

  /** The pushed history is a window over the old history followed by the
      new snapshots. */
  lemma {:induction false} PushWindow(b: seq<Handle>, m: nat, k: nat, limit: nat)
    requires 0 < limit && |b| <= limit
    ensures Dropped(|b|, k, limit) <= |b| + k
    ensures PushAll(b, m, k, limit) == (b + Range(m, k))[Dropped(|b|, k, limit)..]
    decreases k
  {
    if k > 0 {
      PushWindow(b, m, k - 1, limit);
      var s := b + Range(m, k - 1);
      var d := Dropped(|b|, k - 1, limit);
      var x := m + k - 1;
      assert b + Range(m, k) == s + [x];
      if |s[d..]| < limit {
        assert Dropped(|b|, k, limit) == d;
        assert s[d..] + [x] == (s + [x])[d..];
      } else {
        assert Dropped(|b|, k, limit) == d + 1;
        assert s[d..][1..] + [x] == (s + [x])[d + 1..];
      }
    }
  }

  /** `save` then `undo` succeeds, frees the snapshot `save` made, and leaves
      the history as it was, minus the oldest entry when `save` had to evict
      one; the datablocks are as before but for that evicted entry.  In edit
      mode the live mesh is rolled back to the restore point that preceded
      the `save` whenever the history had room or the limit is at least 2.
      With a limit of 1 the eviction frees that very restore point, and the
      undo falls back to the original (ops/demo.py:124-152). */
  lemma SaveThenUndo(w: World)
    requires Wf(w) && Save(w).ok
    ensures Undo(Save(w).w).ok
    ensures |w.ed.backups| < w.ed.undoLimit ==> Undo(Save(w).w).w.ed.backups == w.ed.backups
    ensures |w.ed.backups| == w.ed.undoLimit ==> Undo(Save(w).w).w.ed.backups == w.ed.backups[1..]
    ensures !Live(Undo(Save(w).w).w.host, |w.host.meshes|)
    ensures |w.ed.backups| < w.ed.undoLimit ==>
      Undo(Save(w).w).w.host.meshes == w.host.meshes + [None]
    ensures |w.ed.backups| == w.ed.undoLimit ==>
      Undo(Save(w).w).w.host.meshes == Release(w.host, w.ed, w.ed.backups[0]).meshes + [None]
    ensures (|w.ed.backups| < w.ed.undoLimit || w.ed.undoLimit >= 2) && w.host.target.value.editMode ==>
      LiveContent(Undo(Save(w).w).w) == w.host.meshes[RestorePoint(w.ed)].value.content
  {
    SaveIsSaved(w);
    UndoAfterSaved(w, Save(w).w);
  }

  /** What a successful `save` leaves behind, stated without `Save`. */
  predicate Saved(w: World, s: World) {
    && w.host.target.Some? && s.host.target.Some?
    && s.host.target.value.editMode == w.host.target.value.editMode
    && Wf(s) && Usable(s)
    && s.ed == w.ed.(bm := s.ed.bm, backups := PushBounded(w.ed.backups, |w.host.meshes|, w.ed.undoLimit))
    && |s.host.meshes| == |w.host.meshes| + 1
    && s.host.meshes[|w.host.meshes|].Some?
    && s.host.meshes[|w.host.meshes|].value.uid == w.host.nextUid
    && (|w.ed.backups| < w.ed.undoLimit ==> s.host.meshes[..|w.host.meshes|] == w.host.meshes)
    && (0 < |w.ed.backups| == w.ed.undoLimit ==>
          s.host.meshes[..|w.host.meshes|] == Release(w.host, w.ed, w.ed.backups[0]).meshes)
  }

  lemma SaveIsSaved(w: World)
    requires Wf(w) && Save(w).ok
    ensures Saved(w, Save(w).w)
  {
  }

  /** `undo` on a session that a `save` has just pushed onto. */
  lemma UndoAfterSaved(w: World, s: World)
    requires Wf(w) && Usable(w) && Saved(w, s)
    ensures Undo(s).ok
    ensures |w.ed.backups| < w.ed.undoLimit ==> Undo(s).w.ed.backups == w.ed.backups
    ensures |w.ed.backups| == w.ed.undoLimit ==> Undo(s).w.ed.backups == w.ed.backups[1..]
    ensures !Live(Undo(s).w.host, |w.host.meshes|)
    ensures |w.ed.backups| < w.ed.undoLimit ==> Undo(s).w.host.meshes == w.host.meshes + [None]
    ensures |w.ed.backups| == w.ed.undoLimit ==>
      Undo(s).w.host.meshes == Release(w.host, w.ed, w.ed.backups[0]).meshes + [None]
    ensures (|w.ed.backups| < w.ed.undoLimit || w.ed.undoLimit >= 2) && w.host.target.value.editMode ==>
      LiveContent(Undo(s).w) == w.host.meshes[RestorePoint(w.ed)].value.content
  {
    var m := |w.host.meshes|;
    assert s.ed.backups[|s.ed.backups| - 1] == m;
    if |w.ed.backups| < w.ed.undoLimit {
      UndoAfterSavedWithRoom(w, s);
    } else {
      assert s.ed.backups[..|s.ed.backups| - 1] == w.ed.backups[1..];
      UndoAfterSavedFull(w, s);
    }
  }

  /** `UndoAfterSaved` when the history was full: `save` evicted and freed
      the oldest entry, and `undo` frees the new snapshot again. */
  lemma UndoAfterSavedFull(w: World, s: World)
    requires Wf(w) && Usable(w) && Saved(w, s) && |w.ed.backups| == w.ed.undoLimit
    ensures Undo(s).w.host.meshes == Release(w.host, w.ed, w.ed.backups[0]).meshes + [None]
    ensures w.ed.undoLimit >= 2 && w.host.target.value.editMode && Undo(s).ok ==>
      LiveContent(Undo(s).w) == w.host.meshes[RestorePoint(w.ed)].value.content
  {
    var u := Undo(s).w;
    var m := |w.host.meshes|;
    var b := w.ed.backups;
    var rel := Release(w.host, w.ed, b[0]);
    assert s.ed.backups == b[1..] + [m];
    assert s.ed.backups[..|s.ed.backups| - 1] == b[1..];
    assert u.host.meshes == s.host.meshes[m := None];
    assert s.host.meshes == rel.meshes + [s.host.meshes[m]];
    if w.ed.undoLimit >= 2 {
      assert RestorePoint(u.ed) == b[|b| - 1] == RestorePoint(w.ed);
      assert b[|b| - 1] != b[0];
      assert s.host.meshes[b[|b| - 1]] == w.host.meshes[b[|b| - 1]];
    }
  }

  /** `UndoAfterSaved` when the history had room for the new snapshot. */
  lemma UndoAfterSavedWithRoom(w: World, s: World)
    requires Wf(w) && Usable(w) && Saved(w, s) && |w.ed.backups| < w.ed.undoLimit
    ensures Undo(s).w.ed.backups == w.ed.backups
    ensures Undo(s).w.host.meshes == w.host.meshes + [None]
    ensures w.host.target.value.editMode && Undo(s).ok ==>
      LiveContent(Undo(s).w) == w.host.meshes[RestorePoint(w.ed)].value.content
  {
    var u := Undo(s).w;
    var m := |w.host.meshes|;
    assert s.ed.backups == w.ed.backups + [m];
    assert s.ed.backups[..|s.ed.backups| - 1] == w.ed.backups;
    assert u.host.meshes == s.host.meshes[m := None];
    assert s.host.meshes == w.host.meshes + [s.host.meshes[m]];
    assert RestorePoint(u.ed) == RestorePoint(w.ed);
  }

  /** Restoring twice in a row gives the same session and host as restoring
      once: the rollback never drifts (ops/demo.py:105-111). */
  lemma RestoreTwice(w: World)
    requires Wf(w) && Restore(w).ok
    ensures Restore(Restore(w).w).ok
    ensures Restore(Restore(w).w) == Restore(w)
  {
    var r := Restore(w).w;
    assert RestorePoint(r.ed) == RestorePoint(w.ed);
    assert r.host.meshes == w.host.meshes;
  }
}

=== FILE: handlers.dfy ===
/** The draw-handler and load-pre handler registries (utils/handlers.py).
    Each registry is a class-level table keyed by a fresh key; the keys come
    from `uuid4`, modelled here by a counter that never repeats.  Python
    callables and tuples are modelled by `PyObj` and `Option<Args>`, so that
    the registries' type checks have something to reject. */
module Handlers {
  import opened Wrappers
  import opened Seqs

  /** `SPACE_TYPES` (utils/handlers.py:38-55). */
  datatype SpaceType =
    | CLIP_EDITOR | CONSOLE | DOPESHEET_EDITOR | EMPTY | FILE_BROWSER | GRAPH_EDITOR
    | IMAGE_EDITOR | INFO | NLA_EDITOR | NODE_EDITOR | OUTLINER | PREFERENCES
    | PROPERTIES | SEQUENCE_EDITOR | SPREADSHEET | TEXT_EDITOR | VIEW_3D

  /** `REGION_TYPES` (utils/handlers.py:57-70). */
  datatype RegionType =
    | ASSET_SHELF | ASSET_SHELF_HEADER | CHANNELS | EXECUTE | FOOTER | HEADER
    | NAVIGATION_BAR | PREVIEW | TOOLS | TOOL_HEADER | TOOL_PROPS | UI | WINDOW

  /** `DRAW_TYPES` (utils/handlers.py:72-76). */
  datatype DrawType = BACKDROP | POST_PIXEL | POST_VIEW | PRE_VIEW

  /** A Python object passed as a callback: a callable, identified by `fn`,
      or anything else. */
  datatype PyObj = Callable(fn: nat) | NotCallable

  /** An argument the source tests with `x in <enum class>`: a member of
      that enum, a member of some other enum (the test is false), or a value
      that is not an enum member at all, for which the test raises
      `TypeError` on the Python versions 3.8 to 3.11. */
  datatype EnumArg<+T> = Member(value: T) | OtherEnum | NotEnum

  /** The arguments of a callback, opaque to the model. */
  type Args = seq<int>

  /** A registry key, standing for the string `keygen()` returns. */
  type Key = nat

  /** A handle the host returns from `draw_handler_add`. */
  type DrawHandle = nat

  /** One call of a callback with its arguments. */
  datatype Call = Call(fn: nat, args: Args)

  // ----------------------------------------------------------------------
  // ShaderHandler
  // ----------------------------------------------------------------------

  /** A `ShaderHandler` instance (utils/handlers.py:110-118).  `handle` is
      the host's draw handle, `None` before `setup`. */
  datatype ShaderHandler = ShaderHandler(
    key: Key, cbfunc: PyObj, cbargs: Args,
    space: SpaceType, regtype: RegionType, drawtype: DrawType,
    isValid: bool, handle: Option<DrawHandle>)

  /** The class-level `_HANDLERS` table together with the host's installed
      draw handles and the key oracle's state. */
  datatype ShaderRegistry = ShaderRegistry(handlers: map<Key, ShaderHandler>, drawn: set<DrawHandle>, nextKey: Key)

  /** Every stored handler sits under its own key, is valid, has a callable
      callback and a draw handle, and its key was handed out already. */
  predicate Wf(reg: ShaderRegistry) {
    forall k :: k in reg.handlers ==>
      k < reg.nextKey && reg.handlers[k].key == k && reg.handlers[k].isValid &&
      reg.handlers[k].cbfunc.Callable? && reg.handlers[k].handle.Some?
  }

  /** What the host's `draw_handler_add` does when asked for a draw
      handle: it hands one out, returns something falsy, or raises (for a
      space without draw handlers, or a region type the space lacks). */
  datatype HostAnswer = Handle(handle: DrawHandle) | Falsy | Raises(error: string)

  /** The handle a non-raising answer stores in the handler's `handle`. */
  function Stored(answer: HostAnswer): Option<DrawHandle> {
    if answer.Handle? then Some(answer.handle) else None
  }

  /** `setup` (utils/handlers.py:120-126): asks the host for a draw handle.
      The call is not guarded, so a raise leaves `setup` as it is. */
  function Setup(h: ShaderHandler, drawn: set<DrawHandle>, answer: HostAnswer): (r: Result<(bool, ShaderHandler, set<DrawHandle>)>)
    ensures r.Err? <==> answer.Raises?
    ensures r.Err? ==> r.error == answer.error
    ensures r.Ok? ==> (r.value.0 <==> answer.Handle?)
    ensures r.Ok? ==> r.value.1.isValid == (h.isValid || answer.Handle?) && r.value.1.handle == Stored(answer)
    ensures r.Ok? ==> r.value.1 == h.(isValid := r.value.1.isValid, handle := Stored(answer))
    ensures answer.Handle? ==> r.value.2 == drawn + {answer.handle}
    ensures answer.Falsy? ==> r.value.2 == drawn
  {
    match answer
    case Handle(d) => Ok((true, h.(handle := Some(d), isValid := true), drawn + {d}))
    case Falsy => Ok((false, h.(handle := None), drawn))
    case Raises(e) => Err(e)
  }

  /** The enum tests of `add` raise: `x in EnumClass` raises `TypeError`
      for a value that is no enum member, and the tests stop at the first
      that is false or raises. */
  predicate EnumRaises(space: EnumArg<SpaceType>, regtype: EnumArg<RegionType>, drawtype: EnumArg<DrawType>) {
    space.NotEnum? || (space.Member? && (regtype.NotEnum? || (regtype.Member? && drawtype.NotEnum?)))
  }

  /** `ShaderHandler.add` (utils/handlers.py:92-100).  The callback and
      argument checks come first (`cbargs` is `None` when it is not a
      tuple); then the three enum tests, left to right, stopping at the
      first that is false or raises; then `setup`, whose raise passes
      through.  A handler is stored and returned only when every test
      passes and `setup` succeeds. */
  function Add(reg: ShaderRegistry, cbfunc: PyObj, cbargs: Option<Args>, space: EnumArg<SpaceType>,
               regtype: EnumArg<RegionType>, drawtype: EnumArg<DrawType>, answer: HostAnswer)
    : (r: Result<(ShaderRegistry, Option<ShaderHandler>)>)
    requires Wf(reg)
    ensures r.Err? <==>
      cbfunc.Callable? && cbargs.Some? &&
      (EnumRaises(space, regtype, drawtype) || (space.Member? && regtype.Member? && drawtype.Member? && answer.Raises?))
    ensures r.Err? && EnumRaises(space, regtype, drawtype) ==> r.error == "TypeError"
    ensures r.Err? && !EnumRaises(space, regtype, drawtype) ==> answer.Raises? && r.error == answer.error
    ensures r.Ok? ==> Wf(r.value.0)
    ensures r.Ok? ==> (r.value.1.Some? <==>
      cbfunc.Callable? && cbargs.Some? && space.Member? && regtype.Member? && drawtype.Member? && answer.Handle?)
    ensures r.Ok? && r.value.1.None? ==> r.value.0.handlers == reg.handlers && r.value.0.drawn == reg.drawn
    ensures r.Ok? && r.value.1.Some? ==>
      var h := r.value.1.value;
      h.key !in reg.handlers && r.value.0.handlers == reg.handlers[h.key := h] &&
      h.isValid && h.handle == Some(answer.handle) && h.cbfunc == cbfunc && h.cbargs == cbargs.value &&
      h.space == space.value && h.regtype == regtype.value && h.drawtype == drawtype.value &&
      r.value.0.drawn == reg.drawn + {answer.handle}
  {
    if !(cbfunc.Callable? && cbargs.Some?) then Ok((reg, None))
    else if space.NotEnum? then Err("TypeError")
    else if space.OtherEnum? then Ok((reg, None))
    else if regtype.NotEnum? then Err("TypeError")
    else if regtype.OtherEnum? then Ok((reg, None))
    else if drawtype.NotEnum? then Err("TypeError")
    else if drawtype.OtherEnum? then Ok((reg, None))
    else
      var key := reg.nextKey;
      var h := ShaderHandler(key, cbfunc, cbargs.value, space.value, regtype.value, drawtype.value, false, None);
      match Setup(h, reg.drawn, answer)
      case Err(e) => Err(e)
      case Ok((ok, h1, drawn)) =>
        if ok then
          Ok((ShaderRegistry(reg.handlers[key := h1], drawn, key + 1), Some(h1)))
        else
          Ok((reg.(nextKey := key + 1), None))
  }

  /** `remove` (utils/handlers.py:128-137): invalidates the handler, asks
      the host to drop its draw handle when it has one, and deletes its own
      key.  As written it clears an unused `draw_handle` attribute, so the
      handler keeps its `handle`. */
  function Remove(reg: ShaderRegistry, h: ShaderHandler): (r: (ShaderRegistry, ShaderHandler))
    ensures !r.1.isValid && r.1 == h.(isValid := false)
    ensures r.0.handlers == reg.handlers - {h.key} && r.0.nextKey == reg.nextKey
    ensures h.handle.Some? ==> r.0.drawn == reg.drawn - {h.handle.value}
    ensures h.handle.None? ==> r.0.drawn == reg.drawn
    ensures Wf(reg) ==> Wf(r.0)
  {
    var drawn := if h.handle.Some? then reg.drawn - {h.handle.value} else reg.drawn;
    (ShaderRegistry(reg.handlers - {h.key}, drawn, reg.nextKey), h.(isValid := false))
  }

  /** `_wrapper` (utils/handlers.py:139-143): the call the host's draw
      callback makes, if any. */
  function Wrapper(h: ShaderHandler): (r: Option<Call>)
    ensures r.Some? <==> h.isValid && h.cbfunc.Callable?
    ensures r.Some? ==> r.value == Call(h.cbfunc.fn, h.cbargs)
  {
    if h.isValid && h.cbfunc.Callable? then Some(Call(h.cbfunc.fn, h.cbargs)) else None
  }

  /** The draw handles held by the handlers of `hs` whose keys are in `ks`. */
  ghost function HandlesOf(hs: map<Key, ShaderHandler>, ks: set<Key>): set<DrawHandle> {
    set k | k in ks && k in hs && hs[k].handle.Some? :: hs[k].handle.value
  }

  /** `remove_all_handles` (utils/handlers.py:103-108): removes every stored
      handler, taking its draw handle off the host, then clears the table. */
  method RemoveAllHandles(reg: ShaderRegistry) returns (r: ShaderRegistry)
    ensures r.handlers == map[] && r.nextKey == reg.nextKey
    ensures r.drawn == reg.drawn - HandlesOf(reg.handlers, reg.handlers.Keys)
  {
    var snapshot := reg.handlers;
    var todo := snapshot.Keys;
    r := reg;
    while todo != {}
      invariant todo <= snapshot.Keys
      invariant r.nextKey == reg.nextKey
      invariant r.drawn == reg.drawn - HandlesOf(snapshot, snapshot.Keys - todo)
      decreases |todo|
    {
      var k :| k in todo;
      var h := snapshot[k];
      var next := Remove(r, h).0;
      assert HandlesOf(snapshot, snapshot.Keys - (todo - {k}))
          == HandlesOf(snapshot, snapshot.Keys - todo) + (if h.handle.Some? then {h.handle.value} else {});
      r := next;
      todo := todo - {k};
    }
    r := r.(handlers := map[]);
  }

  /** Removing what `add` just stored gives the table back, and the host
      loses the draw handle again when it was new to it; the removed
      handler's callback no longer fires. */
  lemma AddThenRemove(reg: ShaderRegistry, cbfunc: PyObj, cbargs: Option<Args>, space: EnumArg<SpaceType>,
                      regtype: EnumArg<RegionType>, drawtype: EnumArg<DrawType>, answer: HostAnswer)
    requires Wf(reg)
    requires Add(reg, cbfunc, cbargs, space, regtype, drawtype, answer).Ok?
    requires Add(reg, cbfunc, cbargs, space, regtype, drawtype, answer).value.1.Some?
    ensures Wrapper(Add(reg, cbfunc, cbargs, space, regtype, drawtype, answer).value.1.value) == Some(Call(cbfunc.fn, cbargs.value))
    ensures Remove(Add(reg, cbfunc, cbargs, space, regtype, drawtype, answer).value.0,
                   Add(reg, cbfunc, cbargs, space, regtype, drawtype, answer).value.1.value).0.handlers == reg.handlers
    ensures answer.Handle? && answer.handle !in reg.drawn ==>
      Remove(Add(reg, cbfunc, cbargs, space, regtype, drawtype, answer).value.0,
             Add(reg, cbfunc, cbargs, space, regtype, drawtype, answer).value.1.value).0.drawn == reg.drawn
    ensures Wrapper(Remove(Add(reg, cbfunc, cbargs, space, regtype, drawtype, answer).value.0,
                           Add(reg, cbfunc, cbargs, space, regtype, drawtype, answer).value.1.value).1) == None
  {
    var (reg1, oh) := Add(reg, cbfunc, cbargs, space, regtype, drawtype, answer).value;
    var h := oh.value;
    assert h.key !in reg.handlers;
    assert reg1.handlers - {h.key} == reg.handlers;
  }

  /** Removing one handler leaves every other entry as it was. */
  lemma RemoveKeepsOthers(reg: ShaderRegistry, h: ShaderHandler, k: Key)
    requires k in reg.handlers && k != h.key
    ensures k in Remove(reg, h).0.handlers && Remove(reg, h).0.handlers[k] == reg.handlers[k]
  {
  }

  // ----------------------------------------------------------------------
  // LoadPreHandler
  // ----------------------------------------------------------------------

  /** A `LoadPreHandler` instance (utils/handlers.py:179-183). */
  datatype LoadPre = LoadPre(key: Key, cbfunc: PyObj, cbargs: Args, isValid: bool)

  /** An entry of the host's `bpy.app.handlers.load_pre` list: the class's
      own `load_pre_callback`, or a callback of someone else's. */
  datatype HostFn = OwnCallback | OtherFn(id: nat)

  /** The class-level `_HANDLERS` table, in insertion order, the host's
      `load_pre` list and the key oracle's state. */
  datatype LoadPreRegistry = LoadPreRegistry(handlers: seq<LoadPre>, loadPre: seq<HostFn>, nextKey: Key)

  /** Stored keys are distinct, already handed out, and match the position
      they are stored under. */
  predicate LoadPreWf(reg: LoadPreRegistry) {
    (forall i :: 0 <= i < |reg.handlers| ==> reg.handlers[i].key < reg.nextKey) &&
    (forall i, j :: 0 <= i < j < |reg.handlers| ==> reg.handlers[i].key != reg.handlers[j].key)
  }

  /** The number of times `f` occurs in the host list. */
  function Count(l: seq<HostFn>, f: HostFn): (n: nat)
    ensures n <= |l|
    ensures n == 0 <==> f !in l
  {
    if |l| == 0 then 0 else (if l[0] == f then 1 else 0) + Count(l[1..], f)
  }

  /** `register` (utils/handlers.py:161-164): appends the callback unless the
      host list holds it already. */
  function Register(l: seq<HostFn>): (r: seq<HostFn>)
    ensures OwnCallback in r
    ensures OwnCallback in l ==> r == l
    ensures OwnCallback !in l ==> r == l + [OwnCallback]
  {
    if OwnCallback in l then l else l + [OwnCallback]
  }

  /** Python's `list.remove`: drops the first occurrence of `f`. */
  function RemoveFirst(l: seq<HostFn>, f: HostFn): (r: seq<HostFn>)
    requires f in l
    ensures r == l[..FirstIndex(l, f)] + l[FirstIndex(l, f) + 1..]
    ensures |r| == |l| - 1
    ensures Count(r, f) == Count(l, f) - 1
    ensures forall g :: g != f ==> Count(r, g) == Count(l, g)
  {
    CountsWithoutFirst(l, f);
    if l[0] == f then l[1..]
    else
      var rest := RemoveFirst(l[1..], f);
      RemoveFirstSplit(l, f, rest);
      [l[0]] + rest
  }

  /** Cutting the first `f` out of `l` lowers its count by one and leaves
      every other count alone. */
  lemma CountsWithoutFirst(l: seq<HostFn>, f: HostFn)
    requires f in l
    ensures Count(l[..FirstIndex(l, f)] + l[FirstIndex(l, f) + 1..], f) == Count(l, f) - 1
    ensures forall g :: g != f ==> Count(l[..FirstIndex(l, f)] + l[FirstIndex(l, f) + 1..], g) == Count(l, g)
  {
    var i := FirstIndex(l, f);
    assert l == (l[..i] + [f]) + l[i + 1..];
    forall g ensures Count(l[..i] + l[i + 1..], g) == Count(l, g) - (if g == f then 1 else 0) {
      CountAppend(l[..i], l[i + 1..], g);
      CountAppend(l[..i] + [f], l[i + 1..], g);
      CountAppend(l[..i], [f], g);
    }
  }

  /** The step of `RemoveFirst` past a head that is not `f`, in terms of
      positions. */
  lemma RemoveFirstSplit(l: seq<HostFn>, f: HostFn, rest: seq<HostFn>)
    requires f in l && l[0] != f
    requires rest == l[1..][..FirstIndex(l[1..], f)] + l[1..][FirstIndex(l[1..], f) + 1..]
    ensures [l[0]] + rest == l[..FirstIndex(l, f)] + l[FirstIndex(l, f) + 1..]
  {
    var i := FirstIndex(l[1..], f);
    assert FirstIndex(l, f) == i + 1;
    assert l[..i + 1] == [l[0]] + l[1..][..i];
    assert l[i + 2..] == l[1..][i + 1..];
  }

  /** `unregister` (utils/handlers.py:166-169): removes one occurrence of
      the callback, and nothing when the host list does not hold it. */
  function Unregister(l: seq<HostFn>): (r: seq<HostFn>)
    ensures OwnCallback !in l ==> r == l
    ensures OwnCallback in l ==>
      r == l[..FirstIndex(l, OwnCallback)] + l[FirstIndex(l, OwnCallback) + 1..]
    ensures OwnCallback in l ==> Count(r, OwnCallback) == Count(l, OwnCallback) - 1
    ensures forall g :: g != OwnCallback ==> Count(r, g) == Count(l, g)
  {
    if OwnCallback in l then RemoveFirst(l, OwnCallback) else l
  }

  /** `register` is idempotent and, from a list holding the callback at
      most once, leaves it there exactly once; `unregister` then takes it
      out and every other callback keeps its count. */
  lemma RegisterOnce(l: seq<HostFn>)
    requires Count(l, OwnCallback) <= 1
    ensures Register(Register(l)) == Register(l)
    ensures Count(Register(l), OwnCallback) == 1
    ensures OwnCallback !in Unregister(Register(l))
    ensures forall g :: g != OwnCallback ==> Count(Unregister(Register(l)), g) == Count(l, g)
  {
    if OwnCallback !in l {
      CountAppend(l, [OwnCallback], OwnCallback);
      forall g | g != OwnCallback
        ensures Count(l + [OwnCallback], g) == Count(l, g)
      {
        CountAppend(l, [OwnCallback], g);
      }
    }
  }

  /** Counting distributes over concatenation. */
  lemma {:induction false} CountAppend(a: seq<HostFn>, b: seq<HostFn>, f: HostFn)
    ensures Count(a + b, f) == Count(a, f) + Count(b, f)
  {
    if |a| == 0 {
      assert a + b == b;
    } else {
      CountAppend(a[1..], b, f);
      assert (a + b)[1..] == a[1..] + b;
    }
  }

  /** `LoadPreHandler.add` (utils/handlers.py:171-177): a callable callback
      with a tuple of arguments is stored, valid, under a fresh key;
      otherwise nothing is stored and `None` comes back. */
  function LoadPreAdd(reg: LoadPreRegistry, cbfunc: PyObj, cbargs: Option<Args>): (r: (LoadPreRegistry, Option<LoadPre>))
    requires LoadPreWf(reg)
    ensures LoadPreWf(r.0) && r.0.loadPre == reg.loadPre
    ensures r.1.Some? <==> cbfunc.Callable? && cbargs.Some?
    ensures r.1.None? ==> r.0.handlers == reg.handlers
    ensures r.1.Some? ==>
      r.0.handlers == reg.handlers + [r.1.value] && r.1.value.isValid &&
      r.1.value.cbfunc == cbfunc && r.1.value.cbargs == cbargs.value &&
      forall i :: 0 <= i < |reg.handlers| ==> reg.handlers[i].key != r.1.value.key
  {
    if cbfunc.Callable? && cbargs.Some? then
      var h := LoadPre(reg.nextKey, cbfunc, cbargs.value, true);
      (reg.(handlers := reg.handlers + [h], nextKey := reg.nextKey + 1), Some(h))
    else
      (reg, None)
  }

  /** The handlers whose key is not `k`, in order. */
  function Without(hs: seq<LoadPre>, k: Key): (r: seq<LoadPre>)
    ensures |r| <= |hs|
    ensures forall i :: 0 <= i < |r| ==> r[i].key != k
  {
    if |hs| == 0 then []
    else
      var rest := Without(hs[1..], k);
      if hs[0].key == k then rest else [hs[0]] + rest
  }

  /** `Without` draws its entries from the table and keeps every entry
      under another key. */
  lemma {:induction false} WithoutMembers(hs: seq<LoadPre>, k: Key)
    ensures forall i :: 0 <= i < |Without(hs, k)| ==> Without(hs, k)[i] in hs
    ensures forall h :: h in hs && h.key != k ==> h in Without(hs, k)
  {
    if |hs| > 0 {
      WithoutMembers(hs[1..], k);
      assert hs == [hs[0]] + hs[1..];
    }
  }

  /** The test "stored under a key other than `k`". */
  function OtherKey(k: Key): LoadPre -> bool {
    (h: LoadPre) => h.key != k
  }

  /** `Without` keeps exactly the handlers under other keys, each once per
      occurrence, in table order. */
  lemma {:induction false} WithoutIsFilter(hs: seq<LoadPre>, k: Key)
    ensures IsFilter(Without(hs, k), hs, OtherKey(k))
  {
    if |hs| > 0 {
      WithoutIsFilter(hs[1..], k);
      FilterCons(Without(hs[1..], k), hs[1..], hs[0], OtherKey(k));
      assert hs == [hs[0]] + hs[1..];
    }
  }

  /** `LoadPreHandler.remove` (utils/handlers.py:185-188): invalidates the
      handler and deletes its own key. */
  function LoadPreRemove(reg: LoadPreRegistry, h: LoadPre): (r: (LoadPreRegistry, LoadPre))
    requires LoadPreWf(reg)
    ensures LoadPreWf(r.0) && r.0.loadPre == reg.loadPre
    ensures !r.1.isValid && r.1 == h.(isValid := false)
    ensures r.0.handlers == Without(reg.handlers, h.key)
    ensures r.0.nextKey == reg.nextKey
    ensures forall i :: 0 <= i < |r.0.handlers| ==> r.0.handlers[i].key != h.key
    ensures forall g :: g in reg.handlers && g.key != h.key ==> g in r.0.handlers
  {
    var hs := Without(reg.handlers, h.key);
    assert hs == Without(reg.handlers, h.key);
    WithoutMembers(reg.handlers, h.key);
    assert forall i, j :: 0 <= i < j < |hs| ==> hs[i].key != hs[j].key by {
      WithoutKeepsDistinct(reg.handlers, h.key);
    }
    (reg.(handlers := hs), h.(isValid := false))
  }

  /** `remove` deletes exactly the entries under the handler's key: the
      table keeps every other entry, each once per occurrence, in its
      order, and gains none. */
  lemma LoadPreRemoveFilters(reg: LoadPreRegistry, h: LoadPre)
    requires LoadPreWf(reg)
    ensures IsFilter(LoadPreRemove(reg, h).0.handlers, reg.handlers, OtherKey(h.key))
  {
    WithoutIsFilter(reg.handlers, h.key);
  }

  /** Filtering keeps distinct keys distinct. */
  lemma {:induction false} WithoutKeepsDistinct(hs: seq<LoadPre>, k: Key)
    requires forall i, j :: 0 <= i < j < |hs| ==> hs[i].key != hs[j].key
    ensures forall i, j :: 0 <= i < j < |Without(hs, k)| ==> Without(hs, k)[i].key != Without(hs, k)[j].key
  {
    if |hs| > 0 {
      WithoutKeepsDistinct(hs[1..], k);
      WithoutMembers(hs[1..], k);
      var rest := Without(hs[1..], k);
      if hs[0].key != k {
        forall i | 0 <= i < |rest| ensures rest[i].key != hs[0].key {
          var m :| m in hs[1..] && m == rest[i];
          var j :| 0 <= j < |hs[1..]| && hs[1..][j] == m;
          assert hs[j + 1] == m;
        }
      }
    }
  }

  /** A handler whose callback `load_pre_callback` calls. */
  predicate Fires(h: LoadPre) {
    h.isValid && h.cbfunc.Callable?
  }

  /** The handlers that fire, in table order (`FiringIsFilter`). */
  function Firing(hs: seq<LoadPre>): (r: seq<LoadPre>)
    ensures forall i :: 0 <= i < |r| ==> Fires(r[i])
  {
    if |hs| == 0 then []
    else
      var rest := Firing(hs[1..]);
      if Fires(hs[0]) then [hs[0]] + rest else rest
  }

  /** `Firing` keeps exactly the handlers that fire, each once per
      occurrence, in table order. */
  lemma {:induction false} FiringIsFilter(hs: seq<LoadPre>)
    ensures IsFilter(Firing(hs), hs, Fires)
  {
    if |hs| > 0 {
      FiringIsFilter(hs[1..]);
      FilterCons(Firing(hs[1..]), hs[1..], hs[0], Fires);
      assert hs == [hs[0]] + hs[1..];
    }
  }

  /** `load_pre_callback` (utils/handlers.py:152-159): the calls it makes, in
      table order, one per valid handler with a callable callback. */
  function LoadPreCallback(hs: seq<LoadPre>): (r: seq<Call>)
    ensures |r| == |Firing(hs)|
    ensures forall i :: 0 <= i < |r| ==> r[i] == Call(Firing(hs)[i].cbfunc.fn, Firing(hs)[i].cbargs)
    ensures |r| <= |hs|
    ensures forall c :: c in r <==> CalledBy(hs, c)
  {
    if |hs| == 0 then []
    else
      var rest := LoadPreCallback(hs[1..]);
      CalledByStep(hs, rest);
      assert Firing(hs) == if Fires(hs[0]) then [hs[0]] + Firing(hs[1..]) else Firing(hs[1..]);
      if Fires(hs[0]) then [Call(hs[0].cbfunc.fn, hs[0].cbargs)] + rest else rest
  }

  /** Some handler of the table that fires makes the call `c`. */
  ghost predicate CalledBy(hs: seq<LoadPre>, c: Call) {
    exists i :: 0 <= i < |hs| && Fires(hs[i]) && c == Call(hs[i].cbfunc.fn, hs[i].cbargs)
  }

  /** The calls of a table are those of its first handler and its rest. */
  lemma CalledByStep(hs: seq<LoadPre>, rest: seq<Call>)
    requires |hs| > 0
    requires forall c :: c in rest <==> CalledBy(hs[1..], c)
    ensures forall c ::
      c in (if Fires(hs[0]) then [Call(hs[0].cbfunc.fn, hs[0].cbargs)] + rest else rest) <==> CalledBy(hs, c)
  {
    assert forall i :: 0 < i < |hs| ==> hs[i] == hs[1..][i - 1];
    forall c | CalledBy(hs[1..], c) ensures CalledBy(hs, c) {
      var i :| 0 <= i < |hs[1..]| && Fires(hs[1..][i]) && c == Call(hs[1..][i].cbfunc.fn, hs[1..][i].cbargs);
      assert hs[i + 1] == hs[1..][i];
    }
  }

  /** A handler `add` created is called by the next load, once more than
      before, and after its `remove` the load calls exactly what it called
      before the `add`. */
  lemma AddedHandlerIsCalled(reg: LoadPreRegistry, cbfunc: PyObj, cbargs: Option<Args>)
    requires LoadPreWf(reg) && cbfunc.Callable? && cbargs.Some?
    ensures LoadPreCallback(LoadPreAdd(reg, cbfunc, cbargs).0.handlers)
         == LoadPreCallback(reg.handlers) + [Call(cbfunc.fn, cbargs.value)]
    ensures LoadPreRemove(LoadPreAdd(reg, cbfunc, cbargs).0, LoadPreAdd(reg, cbfunc, cbargs).1.value).0.handlers
         == reg.handlers
  {
    var h := LoadPreAdd(reg, cbfunc, cbargs).1.value;
    CallbackAppend(reg.handlers, h);
    WithoutFresh(reg.handlers, h);
  }

  /** The calls of a table with one more handler at the end. */
  lemma {:induction false} CallbackAppend(hs: seq<LoadPre>, h: LoadPre)
    requires h.isValid && h.cbfunc.Callable?
    ensures LoadPreCallback(hs + [h]) == LoadPreCallback(hs) + [Call(h.cbfunc.fn, h.cbargs)]
  {
    var hs' := hs + [h];
    if |hs| > 0 {
      CallbackAppend(hs[1..], h);
      assert hs'[0] == hs[0] && hs'[1..] == hs[1..] + [h];
    } else {
      assert hs'[1..] == [];
    }
  }

  /** Filtering out the key of a handler appended last, whose key is new,
      gives the table before the append. */
  lemma {:induction false} WithoutFresh(hs: seq<LoadPre>, h: LoadPre)
    requires forall i :: 0 <= i < |hs| ==> hs[i].key != h.key
    ensures Without(hs + [h], h.key) == hs
  {
    var hs' := hs + [h];
    if |hs| == 0 {
      assert hs'[1..] == [];
    } else {
      assert hs'[0] == hs[0] && hs'[1..] == hs[1..] + [h];
      assert Without(hs', h.key) == [hs[0]] + Without(hs[1..] + [h], h.key);
      WithoutFresh(hs[1..], h);
      assert hs == [hs[0]] + hs[1..];
    }
  }
}

=== FILE: labels.dfy ===
/** The widget helpers of utils/labels.py: the enum fallbacks, rectangle
    containment, the property value and label-text logic, the widget lock
    and the window's per-event update.  Text metrics and drawing are the
    host's and are not modelled. */
module Labels {
  import opened Wrappers

  /** `STATUS` of utils/labels.py:14-17. */
  datatype Status = ACTIVE | LOCKED | CLOSED

  /** `ANCHOR` (utils/labels.py:19-28). */
  datatype Anchor = TOP_L | TOP_C | TOP_R | MID_L | MID_C | MID_R | BOT_L | BOT_C | BOT_R

  /** `DTYPE` (utils/labels.py:30-38). */
  datatype DType = NONE | BOOL | INT | FLOAT | STRING | VECTOR | LIST | COLOR

  /** `ETYPE` (utils/labels.py:40-45). */
  datatype EType = NONE | LABEL | BUTTON | INPUT | COLOR

  /** `ensure_anchor` (utils/labels.py:57-60).  The argument is `None` when
      it is not an `ANCHOR` member; members are all truthy, `TOP_L = 0`
      included, because a plain `Enum` does not take its value's truth. */
  function EnsureAnchor(a: Option<Anchor>): (r: Anchor)
    ensures a.Some? ==> r == a.value
    ensures a.None? ==> r == MID_C
  {
    if a.Some? then a.value else MID_C
  }

  /** `ensure_dtype` (utils/labels.py:62-65). */
  function EnsureDType(d: Option<DType>): (r: DType)
    ensures d.Some? ==> r == d.value
    ensures d.None? ==> r == DType.NONE
  {
    if d.Some? then d.value else DType.NONE
  }

  /** `ensure_etype` (utils/labels.py:67-70). */
  function EnsureEType(e: Option<EType>): (r: EType)
    ensures e.Some? ==> r == e.value
    ensures e.None? ==> r == EType.NONE
  {
    if e.Some? then e.value else EType.NONE
  }

  /** Each fallback is a projection: applying it to its own result changes
      nothing, and every member is its own fallback. */
  lemma EnsureIsProjection(a: Option<Anchor>, d: Option<DType>, e: Option<EType>)
    ensures EnsureAnchor(Some(EnsureAnchor(a))) == EnsureAnchor(a)
    ensures EnsureDType(Some(EnsureDType(d))) == EnsureDType(d)
    ensures EnsureEType(Some(EnsureEType(e))) == EnsureEType(e)
    ensures EnsureAnchor(None) == EnsureAnchor(Some(MID_C))
  {
  }

  // ----------------------------------------------------------------------
  // Bounds
  // ----------------------------------------------------------------------

  /** A 2D point (`mathutils.Vector` of size 2). */
  datatype Vec = Vec(x: real, y: real)

  /** A `Bounds` rectangle: corner `(x, y)`, width and height. */
  datatype Bounds = Bounds(x: real, y: real, w: real, h: real)

  /** `test_point_intersect` (utils/labels.py:212-218): containment with
      inclusive edges. */
  function TestPointIntersect(b: Bounds, p: Vec): (r: bool)
    ensures r <==> b.x <= p.x <= b.x + b.w && b.y <= p.y <= b.y + b.h
  {
    if p.x >= b.x then
      if p.x <= b.x + b.w then
        if p.y >= b.y then p.y <= b.y + b.h
        else false
      else false
    else false
  }

  /** `to_quad_points` (utils/labels.py:220-229): bottom-left, top-left,
      top-right, bottom-right. */
  function ToQuadPoints(b: Bounds): (r: (Vec, Vec, Vec, Vec))
    ensures r.0.x == r.1.x == b.x && r.2.x == r.3.x == b.x + b.w
    ensures r.0.y == r.3.y == b.y && r.1.y == r.2.y == b.y + b.h
  {
    (Vec(b.x, b.y), Vec(b.x, b.y + b.h), Vec(b.x + b.w, b.y + b.h), Vec(b.x + b.w, b.y))
  }

  /** The four corners lie inside the rectangle exactly when its width and
      height are not negative; with a negative size no point does. */
  lemma QuadCornersInside(b: Bounds, p: Vec)
    ensures (b.w >= 0.0 && b.h >= 0.0) <==>
      (TestPointIntersect(b, ToQuadPoints(b).0) && TestPointIntersect(b, ToQuadPoints(b).1) &&
       TestPointIntersect(b, ToQuadPoints(b).2) && TestPointIntersect(b, ToQuadPoints(b).3))
    ensures (b.w < 0.0 || b.h < 0.0) ==> !TestPointIntersect(b, p)
  {
  }

  // ----------------------------------------------------------------------
  // Prop
  // ----------------------------------------------------------------------

  /** A Python value as far as the label logic looks at it.  `VList` is a
      Python `list` (the only type `get_value` indexes); `VTuple` stands for
      every other sized sequence, tuples and also the `mathutils.Vector`,
      `Color` and `bpy_prop_array` values a `VECTOR` or `COLOR` property
      holds; `VOther` is a value without a length. */
  datatype Value =
    | VNone
    | VBool(b: bool)
    | VInt(i: int)
    | VFloat(f: real)
    | VStr(s: string)
    | VList(items: seq<Value>)
    | VTuple(items: seq<Value>)
    | VOther

  /** `isinstance(v, int)`: `bool` is a subclass of `int`. */
  predicate IsInt(v: Value) {
    v.VInt? || v.VBool?
  }

  /** The integer an `int` instance stands for. */
  function IntOf(v: Value): int
    requires IsInt(v)
  {
    if v.VInt? then v.i else if v.b then 1 else 0
  }

  /** Python truthiness. */
  predicate Truthy(v: Value) {
    match v
    case VNone => false
    case VBool(b) => b
    case VInt(i) => i != 0
    case VFloat(f) => f != 0.0
    case VStr(s) => s != ""
    case VList(items) => items != []
    case VTuple(items) => items != []
    case VOther => true
  }

  /** A `Prop`: the object's attributes, the attribute name (any value, as
      the source checks it is a string), the data type and the index. */
  datatype Prop = Prop(obj: map<string, Value>, attr: Value, dtype: DType, index: Value)

  /** `Prop.get_value` (utils/labels.py:169-177). */
  function GetValue(p: Prop): (r: Value)
    ensures !p.attr.VStr? || p.attr.s !in p.obj ==> r == VNone
    ensures p.attr.VStr? && p.attr.s in p.obj ==>
      var v := p.obj[p.attr.s];
      if v.VList? && IsInt(p.index) && 0 <= IntOf(p.index) < |v.items| then r == v.items[IntOf(p.index)]
      else r == v
  {
    if p.attr.VStr? && p.attr.s in p.obj then
      var v := p.obj[p.attr.s];
      if v.VList? && IsInt(p.index) && 0 <= IntOf(p.index) < |v.items| then v.items[IntOf(p.index)]
      else v
    else VNone
  }

  /** As written, a `bool` index selects like `0` or `1`, and an index
      outside the list gives the whole list. */
  lemma BoolIndexSelects(obj: map<string, Value>, name: string, dtype: DType, xs: seq<Value>, k: int)
    requires name in obj && obj[name] == VList(xs) && |xs| >= 2
    ensures GetValue(Prop(obj, VStr(name), dtype, VBool(true))) == xs[1]
    ensures GetValue(Prop(obj, VStr(name), dtype, VBool(false))) == xs[0]
    ensures (k < 0 || k >= |xs|) ==> GetValue(Prop(obj, VStr(name), dtype, VInt(k))) == VList(xs)
  {
  }

  /** What `set_label_text` does to the label's text: set it to a literal,
      set it to Python's rendering of a value (`str(int(v))`, `str(v)` or
      the tuple f-string, by `kind`), or leave it. */
  datatype LabelText = Text(s: string) | Rendered(kind: DType, v: Value) | Unchanged

  /** `len(v)` where Python defines it; `None` for a value without a
      length, where `len` raises `TypeError`. */
  function Len(v: Value): Option<nat> {
    match v
    case VStr(s) => Some(|s|)
    case VList(items) => Some(|items|)
    case VTuple(items) => Some(|items|)
    case _ => None
  }

  /** `Prop.set_label_text` (utils/labels.py:179-199): `""` for `NONE`,
      `"On"`/`"Off"` by truthiness for `BOOL`, the value's rendering for
      the scalar and list types, and for `VECTOR`/`COLOR` a tuple rendering
      of two to four components (other lengths leave the text as it was,
      and a value without a length raises `TypeError`). */
  function SetLabelText(p: Prop): (r: Result<LabelText>)
    ensures p.dtype == DType.NONE ==> r == Ok(Text(""))
    ensures p.dtype == BOOL ==> r == Ok(Text(if Truthy(GetValue(p)) then "On" else "Off"))
    ensures p.dtype in {INT, FLOAT, STRING, LIST} ==> r == Ok(Rendered(p.dtype, GetValue(p)))
    ensures p.dtype in {VECTOR, DType.COLOR} ==>
      (r.Err? <==> Len(GetValue(p)).None?) &&
      (r.Ok? ==> (r.value.Rendered? <==> Len(GetValue(p)).value in {2, 3, 4}))
    ensures p.dtype in {VECTOR, DType.COLOR} && r.Ok? ==>
      r.value == (if Len(GetValue(p)).value in {2, 3, 4} then Rendered(p.dtype, GetValue(p)) else Unchanged)
  {
    var v := GetValue(p);
    match p.dtype
    case NONE => Ok(Text(""))
    case BOOL => Ok(Text(if Truthy(v) then "On" else "Off"))
    case INT => Ok(Rendered(INT, v))
    case FLOAT => Ok(Rendered(FLOAT, v))
    case STRING => Ok(Rendered(STRING, v))
    case LIST => Ok(Rendered(LIST, v))
    case _ =>
      match Len(v)
      case None => Err("TypeError")
      case Some(n) => if n in {2, 3, 4} then Ok(Rendered(p.dtype, v)) else Ok(Unchanged)
  }

  // ----------------------------------------------------------------------
  // Widgets and window
  // ----------------------------------------------------------------------

  /** An `Element`: its type (its label and prop take no part in updates). */
  datatype Element = Element(etype: EType)

  /** A `Row` of elements. */
  datatype Row = Row(bounds: Bounds, elements: seq<Element>)

  /** A `Box` of rows. */
  datatype Box = Box(bounds: Bounds, rows: seq<Row>)

  /** What `Data.locked_widget` may hold besides `None`. */
  datatype Widget = WBox(box: Box) | WRow(row: Row) | WElement(element: Element) | WOther

  /** `Data.locked_widget_active` (utils/labels.py:123-127): true for a
      `Box`, `Row` or `Element`; otherwise the lock is cleared. */
  function LockedWidgetActive(lock: Option<Widget>): (r: (bool, Option<Widget>))
    ensures r.0 <==> lock.Some? && !lock.value.WOther?
    ensures r.0 ==> r.1 == lock
    ensures !r.0 ==> r.1 == None
  {
    if lock.Some? && !lock.value.WOther? then (true, lock) else (false, None)
  }

  /** `Element.update` (utils/labels.py:259-260). */
  function ElementUpdate(e: Element, mouse: Vec): (r: bool)
    ensures r
  {
    true
  }

  /** The element loop of `Row.update`: false at the first element whose
      update fails. */
  function ElementsUpdate(es: seq<Element>, mouse: Vec): (r: bool)
    ensures r
    decreases |es|
  {
    if |es| == 0 then true
    else if !ElementUpdate(es[0], mouse) then false
    else ElementsUpdate(es[1..], mouse)
  }

  /** `Row.update` (utils/labels.py:280-285). */
  function RowUpdate(row: Row, mouse: Vec): (r: bool)
    ensures r
  {
    if TestPointIntersect(row.bounds, mouse) then ElementsUpdate(row.elements, mouse) else true
  }

  /** The row loop of `Box.update`. */
  function RowsUpdate(rows: seq<Row>, mouse: Vec): (r: bool)
    ensures r
    decreases |rows|
  {
    if |rows| == 0 then true
    else if !RowUpdate(rows[0], mouse) then false
    else RowsUpdate(rows[1..], mouse)
  }

  /** `Box.update` (utils/labels.py:307-312). */
  function BoxUpdate(box: Box, mouse: Vec): (r: bool)
    ensures r
  {
    if TestPointIntersect(box.bounds, mouse) then RowsUpdate(box.rows, mouse) else true
  }

  /** The `update` of whatever widget is locked. */
  function WidgetUpdate(w: Widget, mouse: Vec): (r: bool)
    requires !w.WOther?
    ensures r
  {
    match w
    case WBox(b) => BoxUpdate(b, mouse)
    case WRow(r) => RowUpdate(r, mouse)
    case WElement(e) => ElementUpdate(e, mouse)
  }

  /** A `Window`: its `Data` status, lock and last mouse position, its
      bounds and its boxes. */
  datatype Window = Window(status: Status, lock: Option<Widget>, mouse: Vec, bounds: Bounds, boxes: seq<Box>)

  /** `Window.update` (utils/labels.py:335-346): records the mouse; with a
      widget locked the status becomes `LOCKED` and the lock is dropped
      only when the widget's update fails, which none does; otherwise the
      lock is cleared and the boxes are updated, which changes nothing.
      The status it returns is the window's. */
  function WindowUpdate(win: Window, mouse: Vec): (r: (Window, Status))
    ensures r.1 == r.0.status && r.0.mouse == mouse
    ensures r.0.bounds == win.bounds && r.0.boxes == win.boxes
    ensures LockedWidgetActive(win.lock).0 ==> r.0.status == LOCKED && r.0.lock == win.lock
    ensures !LockedWidgetActive(win.lock).0 ==> r.0.status == win.status && r.0.lock == None
  {
    var (active, lock) := LockedWidgetActive(win.lock);
    if active then
      var keep := WidgetUpdate(lock.value, mouse);
      var w := win.(mouse := mouse, status := LOCKED, lock := if keep then lock else None);
      (w, w.status)
    else
      var w := win.(mouse := mouse, lock := lock);
      (w, w.status)
  }

  /** A run of window updates, one per mouse position. */
  function WindowRun(win: Window, mice: seq<Vec>): (r: Window)
    decreases |mice|
  {
    if |mice| == 0 then win else WindowRun(WindowUpdate(win, mice[0]).0, mice[1..])
  }

  /** Nothing in the update ever sets the status back: once `LOCKED`, a
      window stays `LOCKED`, and a window whose lock is live keeps it. */
  lemma {:induction false} LockedIsSticky(win: Window, mice: seq<Vec>)
    requires win.status == LOCKED
    ensures WindowRun(win, mice).status == LOCKED
    ensures LockedWidgetActive(win.lock).0 ==> WindowRun(win, mice).lock == win.lock
    decreases |mice|
  {
    if |mice| > 0 {
      LockedIsSticky(WindowUpdate(win, mice[0]).0, mice[1..]);
    }
  }
}

=== FILE: maths.dfy ===
/** The scalar helpers of utils/maths.py, over `real`. */
module Maths {

  function Min(a: real, b: real): real {
    if a <= b then a else b
  }

  function Max(a: real, b: real): real {
    if a >= b then a else b
  }

  /** `clamp_value` (utils/maths.py:18-22): the bounds are swapped when given
      the wrong way round, then the value is clamped between them. */
  function ClampValue(value: real, minVal: real, maxVal: real): (r: real)
    ensures Min(minVal, maxVal) <= r <= Max(minVal, maxVal)
    ensures Min(minVal, maxVal) <= value <= Max(minVal, maxVal) ==> r == value
    ensures value < Min(minVal, maxVal) ==> r == Min(minVal, maxVal)
    ensures value > Max(minVal, maxVal) ==> r == Max(minVal, maxVal)
  {
    var (lo, hi) := if minVal > maxVal then (maxVal, minVal) else (minVal, maxVal);
    Max(lo, Min(value, hi))
  }

  /** Swapping the bounds changes nothing, and clamping twice is clamping
      once. */
  lemma ClampSymmetricIdempotent(value: real, minVal: real, maxVal: real)
    ensures ClampValue(value, minVal, maxVal) == ClampValue(value, maxVal, minVal)
    ensures ClampValue(ClampValue(value, minVal, maxVal), minVal, maxVal) == ClampValue(value, minVal, maxVal)
  {
  }

  /** `remap_value` (utils/maths.py:25-29): `min_b` for a degenerate source
      range, otherwise the affine map taking `[min_a, max_a]` onto
      `[min_b, max_b]`. */
  function RemapValue(value: real, minA: real, maxA: real, minB: real, maxB: real): (r: real)
    ensures minA == maxA ==> r == minB
    ensures minA != maxA && value == minA ==> r == minB
    ensures minA != maxA && value == maxA ==> r == maxB
  {
    if minA == maxA then minB
    else minB + ((value - minA) / (maxA - minA)) * (maxB - minB)
  }

  /** Remapping there and back again gives the value back when neither
      range is degenerate. */
  lemma RemapRoundTrip(value: real, minA: real, maxA: real, minB: real, maxB: real)
    requires minA != maxA && minB != maxB
    ensures RemapValue(RemapValue(value, minA, maxA, minB, maxB), minB, maxB, minA, maxA) == value
  {
    var t := (value - minA) / (maxA - minA);
    var y := minB + t * (maxB - minB);
    assert (y - minB) / (maxB - minB) == t;
    assert minA + t * (maxA - minA) == value;
  }
}

=== FILE: mesh_editor.dfy ===
/** The mesh-edit session (`BmeshEditor`, ops/demo.py): a live editable mesh
    shadowing one target object, an original snapshot taken at construction
    and a bounded, most-recent-last list of snapshot backups.

    The host is abstract state: a registry of mesh datablocks (`bpy.data.meshes`),
    the target object the session points at, and the host's session-uid
    counter.  Mesh contents are opaque; the model only copies, stores and
    compares them. */
module MeshEditor {
  import opened Wrappers

  /** A host session uid (`session_uid`); objects and meshes share one space. */
  type Uid = nat
  /** A reference to a mesh datablock: an index into the host registry. */
  type Handle = nat
  /** Opaque mesh geometry (vertices, edges, faces, selection flags). */
  type Content = seq<int>

  /** `BmeshEditor.undo_limit`, set once in the constructor. */
  const UNDO_LIMIT: nat := 32

  /** A mesh datablock of the host registry. */
  datatype Mesh = Mesh(uid: Uid, content: Content)

  /** The target object as the host currently sees it.  `data` is the
      content of its mesh datablock (`obj.data`); `mesh` is its edit mesh,
      which in edit mode may hold edits that have not been written back to
      `data` yet. */
  datatype Obj = Obj(uid: Uid, objType: string, editMode: bool, mesh: Content, data: Content)

  /** Host state.  `meshes[h]` is `None` once datablock `h` has been removed;
      `target` is `None` when the session's object reference no longer
      denotes a live object. */
  datatype Host = Host(meshes: seq<Option<Mesh>>, target: Option<Obj>, nextUid: Uid)

  /** The session's live `BMesh`.  A wrapped one (from `from_edit_mesh`) is
      the target's edit mesh itself, so its content is read from and written
      to the target; an owned one (from `bmesh.new` + `from_mesh`) carries
      its own copy.  `valid` is the host's `is_valid` flag. */
  datatype BMesh = Wrapped(valid: bool) | Owned(valid: bool, content: Content)

  /** The fields of a `BmeshEditor`; the world matrices are left out. */
  datatype Editor = Editor(
    undoLimit: nat,
    uid: Uid,
    og: Handle,
    ogUid: Uid,
    backups: seq<Handle>,
    bm: Option<BMesh>)

  /** A session together with the host it edits. */
  datatype World = World(host: Host, ed: Editor)

  /** The boolean an editor operation returns and the world it leaves. */
  datatype Step = Step(ok: bool, w: World)

  /** A session object: alive, or after `close` deleted its attributes. */
  datatype Session = Open(ed: Editor) | Deleted

  // ---------------------------------------------------------------------
  // Host registry
  // ---------------------------------------------------------------------

  /** Datablock `h` is still in `bpy.data.meshes`. */
  predicate Live(host: Host, h: Handle) {
    h < |host.meshes| && host.meshes[h].Some?
  }

  /** `mesh.copy()`: a new datablock with a fresh uid under a fresh handle. */
  function Copy(host: Host, c: Content): (r: (Host, Handle))
    ensures r.1 == |host.meshes| && !Live(host, r.1) && Live(r.0, r.1)
    ensures r.0.meshes[..|host.meshes|] == host.meshes
    ensures r.0.meshes[r.1].value == Mesh(host.nextUid, c)
    ensures r.0.target == host.target && r.0.nextUid > host.nextUid
  {
    (Host(host.meshes + [Some(Mesh(host.nextUid, c))], host.target, host.nextUid + 1), |host.meshes|)
  }

  /** A backup may be freed: its uid is neither the target object's uid nor
      the original snapshot's uid (ops/demo.py:137, 146, 158). */
  predicate Disposable(ed: Editor, uid: Uid) {
    uid != ed.uid && uid != ed.ogUid
  }

  /** The guarded `bpy.data.meshes.remove(backup)` of eviction, undo and
      close: only a datablock still in the registry and not identified with
      the target or the original is removed. */
  function Release(host: Host, ed: Editor, h: Handle): (r: Host)
    ensures r.target == host.target && r.nextUid == host.nextUid
    ensures |r.meshes| == |host.meshes|
    ensures Live(host, h) && Disposable(ed, host.meshes[h].value.uid) ==> !Live(r, h)
    ensures !(Live(host, h) && Disposable(ed, host.meshes[h].value.uid)) ==> r == host
    ensures forall g :: 0 <= g < |host.meshes| && g != h ==> r.meshes[g] == host.meshes[g]
  {
    if Live(host, h) && Disposable(ed, host.meshes[h].value.uid) then
      host.(meshes := host.meshes[h := None])
    else
      host
  }

  /** Every handle of `hs` is freed when disposable; nothing else changes
      (the loop of ops/demo.py:156-160). */
  function ReleaseAll(host: Host, ed: Editor, hs: seq<Handle>): (r: Host)
    requires forall i :: 0 <= i < |hs| ==> Live(host, hs[i])
    requires forall i, j :: 0 <= i < j < |hs| ==> hs[i] != hs[j]
    ensures r.target == host.target && r.nextUid == host.nextUid
    ensures |r.meshes| == |host.meshes|
    ensures forall g :: 0 <= g < |host.meshes| ==>
      r.meshes[g] == (if g in hs && host.meshes[g].Some? && Disposable(ed, host.meshes[g].value.uid)
                      then None else host.meshes[g])
    decreases |hs|
  {
    if |hs| == 0 then host
    else
      var next := Release(host, ed, hs[0]);
      forall i | 1 <= i < |hs|
        ensures Live(next, hs[i])
      {
        assert hs[0] != hs[i] && Live(host, hs[i]);
      }
      ReleaseAll(next, ed, hs[1..])
  }

  // ---------------------------------------------------------------------
  // Session invariant and views
  // ---------------------------------------------------------------------

  /** What the session keeps true between calls: every backup is a live,
      distinct datablock other than the original; the history respects the
      undo limit; the uids the session remembers were issued by the host. */
  predicate Wf(w: World) {
    && (forall i :: 0 <= i < |w.ed.backups| ==> Live(w.host, w.ed.backups[i]))
    && (forall i, j :: 0 <= i < j < |w.ed.backups| ==> w.ed.backups[i] != w.ed.backups[j])
    && w.ed.og !in w.ed.backups
    && 0 < w.ed.undoLimit
    && |w.ed.backups| <= w.ed.undoLimit
    && w.ed.uid < w.host.nextUid && w.ed.ogUid < w.host.nextUid
  }

  /** The identity checks of `validator` (ops/demo.py:67-84): the object is
      still there with the same uid and of type `'MESH'`, and the original
      snapshot is still there with the same uid.  A dead reference raises
      inside the `try` and counts as a failed check. */
  predicate IdentityIntact(w: World) {
    && w.host.target.Some?
    && w.host.target.value.uid == w.ed.uid
    && w.host.target.value.objType == "MESH"
    && Live(w.host, w.ed.og)
    && w.host.meshes[w.ed.og].value.uid == w.ed.ogUid
  }

  /** Validation can succeed: identities are intact and a valid live BMesh
      already exists. */
  predicate Usable(w: World) {
    IdentityIntact(w) && w.ed.bm.Some? && w.ed.bm.value.valid
  }

  /** The live mesh can be read. */
  predicate HasLive(w: World) {
    w.ed.bm.Some? && (w.ed.bm.value.Wrapped? ==> w.host.target.Some?)
  }

  /** The content of the live BMesh. */
  function LiveContent(w: World): Content
    requires HasLive(w)
  {
    match w.ed.bm.value
    case Wrapped(_) => w.host.target.value.mesh
    case Owned(_, c) => c
  }

  /** Replaces the live BMesh's geometry; a wrapped BMesh edits the target. */
  function SetLive(w: World, c: Content): (r: World)
    requires HasLive(w)
    ensures HasLive(r) && LiveContent(r) == c
    ensures r.ed == w.ed.(bm := r.ed.bm) && r.ed.bm.value.valid == w.ed.bm.value.valid
    ensures r.ed.bm.value.Wrapped? == w.ed.bm.value.Wrapped?
    ensures r.host.meshes == w.host.meshes && r.host.nextUid == w.host.nextUid
  {
    match w.ed.bm.value
    case Wrapped(v) => World(w.host.(target := Some(w.host.target.value.(mesh := c))), w.ed)
    case Owned(v, _) => World(w.host, w.ed.(bm := Some(Owned(v, c))))
  }

  /** The live BMesh is valid, wrapped exactly in edit mode, and shows the
      target's current mesh. */
  predicate Mirrors(w: World) {
    && w.host.target.Some?
    && w.ed.bm.Some?
    && w.ed.bm.value.valid
    && (w.ed.bm.value.Wrapped? <==> w.host.target.value.editMode)
    && LiveContent(w) == Shown(w.host.target.value)
  }

  /** The content the object shows: its edit mesh in edit mode, its mesh
      data otherwise. */
  function Shown(o: Obj): Content {
    if o.editMode then o.mesh else o.data
  }

  /** `update_from_editmode` (ops/demo.py:127-128): in edit mode the edit
      mesh is written back to the datablock; what the object shows stays. */
  function Synced(o: Obj): (r: Obj)
    ensures r.data == Shown(o) && Shown(r) == Shown(o)
    ensures r == o.(data := r.data)
    ensures !o.editMode ==> r == o
  {
    if o.editMode then o.(data := o.mesh) else o
  }

  /** The snapshot `restore` rolls back to: the last backup, or the original
      when there is none (ops/demo.py:108). */
  function RestorePoint(ed: Editor): (h: Handle)
    ensures |ed.backups| > 0 ==> h == ed.backups[|ed.backups| - 1]
    ensures |ed.backups| == 0 ==> h == ed.og
  {
    if |ed.backups| > 0 then ed.backups[|ed.backups| - 1] else ed.og
  }

  /** Only the target's mesh content differs between two hosts. */
  predicate OnlyTargetMeshChanged(a: Host, b: Host) {
    && b.meshes == a.meshes && b.nextUid == a.nextUid
    && b.target.Some? == a.target.Some?
    && (a.target.Some? ==> b.target.value == a.target.value.(mesh := b.target.value.mesh))
  }

  // ---------------------------------------------------------------------
  // Construction
  // ---------------------------------------------------------------------

  /** `BmeshEditor(obj)`: remembers the object's uid, copies its mesh
      datablock as the original snapshot, starts with no backups and no live
      BMesh (ops/demo.py:46-63).  The copy is of `obj.data` as it stands:
      in edit mode, edits not yet written back are not in it.  An object
      whose data is not a mesh has no `calc_loop_triangles`, so the
      constructor raises `AttributeError` (ops/demo.py:59). */
  function Begin(host: Host): (r: Result<World>)
    requires host.target.Some?
    ensures r.Err? <==> host.target.value.objType != "MESH"
    ensures r.Err? ==> r.error == "AttributeError"
    ensures r.Ok? ==> r.value.ed.undoLimit == UNDO_LIMIT && r.value.ed.uid == host.target.value.uid
    ensures r.Ok? ==> r.value.ed.backups == [] && r.value.ed.bm == None
    ensures r.Ok? ==> Live(r.value.host, r.value.ed.og) && !Live(host, r.value.ed.og)
    ensures r.Ok? ==> r.value.host.meshes[r.value.ed.og].value == Mesh(r.value.ed.ogUid, host.target.value.data)
    ensures r.Ok? ==> |host.meshes| < |r.value.host.meshes| && r.value.host.meshes[..|host.meshes|] == host.meshes
    ensures r.Ok? ==> r.value.host.target == host.target
    ensures r.Ok? && host.target.value.uid < host.nextUid ==> Wf(r.value)
  {
    var (h, og) := Copy(host, host.target.value.data);
    if host.target.value.objType != "MESH" then Err("AttributeError")
    else Ok(World(h, Editor(UNDO_LIMIT, host.target.value.uid, og, host.nextUid, [], None)))
  }

  // ---------------------------------------------------------------------
  // Operations
  // ---------------------------------------------------------------------

  /** `ensure_bmesh` (ops/demo.py:88-103): fails when there is no live BMesh,
      frees and drops an invalid one, and otherwise rebuilds it from the
      target: wrapping the edit mesh in edit mode, copying the mesh data in
      object mode. */
  function EnsureBmesh(w: World): (r: Step)
    requires w.host.target.Some?
    ensures r.w.host == w.host && r.w.ed == w.ed.(bm := r.w.ed.bm)
    ensures r.ok <==> w.ed.bm.Some? && w.ed.bm.value.valid
    ensures r.ok ==> Mirrors(r.w)
    ensures w.ed.bm.None? ==> r.w == w
    ensures w.ed.bm.Some? && !w.ed.bm.value.valid ==> r.w.ed.bm.None?
  {
    match w.ed.bm
    case None => Step(false, w)
    case Some(b) =>
      if !b.valid then
        Step(false, World(w.host, w.ed.(bm := None)))
      else
        var o := w.host.target.value;
        var live := if o.editMode then Wrapped(true) else Owned(true, o.data);
        Step(true, World(w.host, w.ed.(bm := Some(live))))
  }

  /** `validator` (ops/demo.py:65-86): the identity checks, then
      `ensure_bmesh`. */
  function Validator(w: World): (r: Step)
    ensures r.w.host == w.host && r.w.ed == w.ed.(bm := r.w.ed.bm)
    ensures r.ok <==> Usable(w)
    ensures r.ok ==> Mirrors(r.w)
    ensures !r.ok ==> r.w.ed.bm == w.ed.bm || r.w.ed.bm.None?
  {
    if w.host.target.None? then Step(false, w)
    else if w.host.target.value.uid != w.ed.uid then Step(false, w)
    else if w.host.target.value.objType != "MESH" then Step(false, w)
    else if !Live(w.host, w.ed.og) then Step(false, w)
    else if w.host.meshes[w.ed.og].value.uid != w.ed.ogUid then Step(false, w)
    else EnsureBmesh(w)
  }

  /** `restore` (ops/demo.py:105-111): after validation, replaces the live
      geometry with the restore point's.  In edit mode that is the target's
      edit mesh itself. */
  function Restore(w: World): (r: Step)
    requires Wf(w)
    ensures r.ok <==> Usable(w)
    ensures r.w.ed == w.ed.(bm := r.w.ed.bm) && Wf(r.w)
    ensures !r.ok ==> r.w.host == w.host && (r.w.ed.bm == w.ed.bm || r.w.ed.bm.None?)
    ensures r.ok ==> OnlyTargetMeshChanged(w.host, r.w.host)
    ensures r.ok ==> HasLive(r.w) && Usable(r.w)
    ensures r.ok ==> LiveContent(r.w) == w.host.meshes[RestorePoint(w.ed)].value.content
    ensures r.ok ==> (r.w.ed.bm.value.Wrapped? <==> w.host.target.value.editMode)
    ensures r.ok && !w.host.target.value.editMode ==> r.w.host == w.host
  {
    var v := Validator(w);
    if !v.ok then Step(false, v.w)
    else
      var point := RestorePoint(v.w.ed);
      assert Live(v.w.host, point);
      Step(true, SetLive(v.w, v.w.host.meshes[point].value.content))
  }

  /** `update` (ops/demo.py:113-122): after validation, flushes the live mesh
      to the target.  Validation has just rebuilt the live BMesh from the
      target, so the flush leaves the host as it was: in edit mode the
      wrapped BMesh is the edit mesh, in object mode `to_mesh` writes back
      the copy it was made from. */
  function Update(w: World): (r: Step)
    ensures r.ok <==> Usable(w)
    ensures r.w.host == w.host && r.w.ed == w.ed.(bm := r.w.ed.bm)
    ensures r.ok ==> Mirrors(r.w) && Usable(r.w)
    ensures !r.ok ==> r.w.ed.bm == w.ed.bm || r.w.ed.bm.None?
  {
    var v := Validator(w);
    if !v.ok then Step(false, v.w)
    else
      var o := v.w.host.target.value;
      if o.editMode then Step(true, v.w)
      else if v.w.ed.bm.value.Owned? then
        Step(true, World(v.w.host.(target := Some(o.(data := LiveContent(v.w)))), v.w.ed))
      else Step(true, v.w)
  }

  /** `save` (ops/demo.py:124-140): after `update`, writes edit-mode edits
      back to the datablock and appends a fresh copy of it; when the history
      then exceeds the limit, the oldest entry is dropped and freed if
      disposable. */
  function Save(w: World): (r: Step)
    requires Wf(w)
    ensures r.ok <==> Usable(w)
    ensures Wf(r.w)
    ensures r.w.ed == w.ed.(bm := r.w.ed.bm, backups := r.w.ed.backups)
    ensures !r.ok ==> r.w.host == w.host && r.w.ed.backups == w.ed.backups
    ensures r.ok ==> r.w.host.target == Some(Synced(w.host.target.value))
    ensures r.ok ==> Mirrors(r.w) && Usable(r.w)
    ensures r.ok ==> |r.w.host.meshes| == |w.host.meshes| + 1
    ensures r.ok ==> r.w.host.meshes[|w.host.meshes|] == Some(Mesh(w.host.nextUid, Shown(w.host.target.value)))
    ensures r.ok && |w.ed.backups| < w.ed.undoLimit ==>
      r.w.ed.backups == w.ed.backups + [|w.host.meshes|]
      && r.w.host.meshes[..|w.host.meshes|] == w.host.meshes
    ensures r.ok && |w.ed.backups| == w.ed.undoLimit ==>
      r.w.ed.backups == w.ed.backups[1..] + [|w.host.meshes|]
      && r.w.host.meshes[..|w.host.meshes|] == Release(w.host, w.ed, w.ed.backups[0]).meshes
  {
    var u := Update(w);
    if !u.ok then Step(false, u.w)
    else Step(true, Push(u.w))
  }

  /** The part of `save` after `update` (ops/demo.py:127-139): sync, copy,
      append, and evict the oldest entry over the limit. */
  function Push(w: World): (r: World)
    requires Wf(w) && Usable(w) && Mirrors(w)
    ensures Wf(r) && Usable(r) && Mirrors(r)
    ensures r.ed == w.ed.(backups := r.ed.backups)
    ensures r.host.target == Some(Synced(w.host.target.value))
    ensures |r.host.meshes| == |w.host.meshes| + 1
    ensures r.host.meshes[|w.host.meshes|] == Some(Mesh(w.host.nextUid, Shown(w.host.target.value)))
    ensures |w.ed.backups| < w.ed.undoLimit ==>
      r.ed.backups == w.ed.backups + [|w.host.meshes|] && r.host.meshes[..|w.host.meshes|] == w.host.meshes
    ensures |w.ed.backups| == w.ed.undoLimit ==>
      r.ed.backups == w.ed.backups[1..] + [|w.host.meshes|]
      && r.host.meshes[..|w.host.meshes|] == Release(w.host, w.ed, w.ed.backups[0]).meshes
  {
    var synced := Synced(w.host.target.value);
    var (h1, snap) := Copy(w.host.(target := Some(synced)), synced.data);
    var appended := w.ed.backups + [snap];
    AppendKeepsHistory(w.host, h1, w.ed.backups, snap);
    if |appended| > w.ed.undoLimit then
      var ed := w.ed.(backups := appended[1..]);
      var h2 := Release(h1, w.ed, appended[0]);
      EvictKeepsHistory(h1, w.ed, appended);
      assert h2.meshes[..|w.host.meshes|] == Release(w.host, w.ed, w.ed.backups[0]).meshes;
      World(h2, ed)
    else
      World(h1, w.ed.(backups := appended))
  }

  /** A fresh handle appended to a history of live, distinct handles keeps
      it live and distinct in the grown host. */
  lemma AppendKeepsHistory(host: Host, h1: Host, b: seq<Handle>, snap: Handle)
    requires forall i :: 0 <= i < |b| ==> Live(host, b[i])
    requires forall i, j :: 0 <= i < j < |b| ==> b[i] != b[j]
    requires snap == |host.meshes| && Live(h1, snap) && h1.meshes[..|host.meshes|] == host.meshes
    ensures forall i :: 0 <= i < |b + [snap]| ==> Live(h1, (b + [snap])[i])
    ensures forall i, j :: 0 <= i < j < |b + [snap]| ==> (b + [snap])[i] != (b + [snap])[j]
  {
    forall i | 0 <= i < |b| ensures Live(h1, b[i]) {
      assert h1.meshes[b[i]] == host.meshes[b[i]];
    }
  }

  /** Dropping and freeing the oldest entry of a history of live, distinct
      handles leaves the rest live and distinct. */
  lemma EvictKeepsHistory(host: Host, ed: Editor, b: seq<Handle>)
    requires |b| > 0
    requires forall i :: 0 <= i < |b| ==> Live(host, b[i])
    requires forall i, j :: 0 <= i < j < |b| ==> b[i] != b[j]
    ensures forall i :: 0 <= i < |b[1..]| ==> Live(Release(host, ed, b[0]), b[1..][i])
    ensures forall i, j :: 0 <= i < j < |b[1..]| ==> b[1..][i] != b[1..][j]
  {
    forall i | 0 <= i < |b[1..]| ensures Live(Release(host, ed, b[0]), b[1..][i]) {
      assert b[1..][i] == b[i + 1] && b[i + 1] != b[0];
    }
    forall i, j | 0 <= i < j < |b[1..]| ensures b[1..][i] != b[1..][j] {
      assert b[1..][i] == b[i + 1] && b[1..][j] == b[j + 1];
    }
  }

  /** `undo` (ops/demo.py:142-152): pops and frees the newest backup, if any,
      then restores and updates; it succeeds only if both do. */
  function Undo(w: World): (r: Step)
    requires Wf(w)
    ensures r.ok <==> Usable(w)
    ensures Wf(r.w)
    ensures r.w.ed == w.ed.(bm := r.w.ed.bm, backups := r.w.ed.backups)
    ensures |w.ed.backups| > 0 ==> r.w.ed.backups == w.ed.backups[..|w.ed.backups| - 1]
    ensures |w.ed.backups| == 0 ==> r.w.ed.backups == []
    ensures |w.ed.backups| > 0 ==>
      r.w.host.meshes == Release(w.host, w.ed, w.ed.backups[|w.ed.backups| - 1]).meshes
    ensures |w.ed.backups| == 0 ==> r.w.host.meshes == w.host.meshes
    ensures r.ok ==> Mirrors(r.w) && Usable(r.w)
    ensures r.ok ==> LiveContent(r.w) == w.host.meshes[RestorePoint(r.w.ed)].value.content
                     || !w.host.target.value.editMode
    ensures !r.ok ==> r.w.host.target == w.host.target
  {
    var w1 :=
      if |w.ed.backups| > 0 then
        var last := w.ed.backups[|w.ed.backups| - 1];
        World(Release(w.host, w.ed, last), w.ed.(backups := w.ed.backups[..|w.ed.backups| - 1]))
      else w;
    assert Usable(w1) == Usable(w);
    var rs := Restore(w1);
    if !rs.ok then Step(false, rs.w)
    else
      var u := Update(rs.w);
      Step(u.ok, u.w)
  }

  /** `close` (ops/demo.py:154-190): frees every disposable backup and empties
      the history, restores when reverting, updates, drops the live BMesh,
      and frees the original snapshot unless its uid is the object's uid.
      The result is the host the session leaves behind. */
  function Close(w: World, revert: bool): (r: Host)
    requires Wf(w)
    ensures r.nextUid == w.host.nextUid && |r.meshes| == |w.host.meshes|
    ensures forall i :: 0 <= i < |w.ed.backups| ==>
      var b := w.ed.backups[i];
      r.meshes[b] == (if Disposable(w.ed, w.host.meshes[b].value.uid) then None else w.host.meshes[b])
    ensures Live(w.host, w.ed.og) && w.host.meshes[w.ed.og].value.uid != w.ed.uid ==> !Live(r, w.ed.og)
    ensures Live(w.host, w.ed.og) && w.host.meshes[w.ed.og].value.uid == w.ed.uid ==>
      r.meshes[w.ed.og] == w.host.meshes[w.ed.og]
    ensures forall g :: 0 <= g < |w.host.meshes| && g !in w.ed.backups && g != w.ed.og ==>
      r.meshes[g] == w.host.meshes[g]
    ensures r.target.Some? == w.host.target.Some?
    ensures w.host.target.Some? ==> r.target.value == w.host.target.value.(mesh := r.target.value.mesh)
    ensures revert && Usable(w) && w.host.target.value.editMode ==>
      r.target.value.mesh == w.host.meshes[w.ed.og].value.content
    ensures !(revert && Usable(w) && w.host.target.value.editMode) ==> r.target == w.host.target
  {
    var h1 := ReleaseAll(w.host, w.ed, w.ed.backups);
    var w1 := World(h1, w.ed.(backups := []));
    assert Wf(w1);
    assert Usable(w1) == Usable(w);
    var w2 := if revert then Restore(w1).w else w1;
    var w3 := Update(w2).w;
    var host := w3.host;
    if Live(host, w.ed.og) && host.meshes[w.ed.og].value.uid != w.ed.uid then
      host.(meshes := host.meshes[w.ed.og := None])
    else host
  }

  /** Closing a session object: its attributes are deleted, so closing it
      again raises `AttributeError` (ops/demo.py:183-190). */
  function CloseSession(host: Host, s: Session, revert: bool): (r: Result<(Host, Session)>)
    requires s.Open? ==> Wf(World(host, s.ed))
    ensures s.Deleted? <==> r.Err?
    ensures r.Ok? ==> r.value.1 == Deleted && r.value.0 == Close(World(host, s.ed), revert)
  {
    match s
    case Deleted => Err("AttributeError")
    case Open(ed) => Ok((Close(World(host, ed), revert), Deleted))
  }
}

=== FILE: modal_utils.dfy ===
/** The operator status flags and the helpers that attach an operator's
    draw callbacks to the viewport (utils/modal.py). */
module ModalUtils {
  import opened Wrappers
  import opened Handlers

  /** A value of the `STATUS` flag enum: a set of members as bits. */
  type Status = bv8

  /** The members of `STATUS` (utils/modal.py:15-20): `enum.auto()` gives a
      flag enum the successive powers of two. */
  const RUNNING: Status := 1
  const FINISHED: Status := 2
  const INTERFACE: Status := 4
  const CANCELLED: Status := 8
  const PASSTHROUGH: Status := 16

  /** The members, in declaration order. */
  const Members: seq<Status> := [RUNNING, FINISHED, INTERFACE, CANCELLED, PASSTHROUGH]

  /** Python's `a in b` on flags: every bit of `a` is set in `b`. */
  predicate FlagIn(a: Status, b: Status) {
    a & b == a
  }

  /** A flag value with exactly one bit set. */
  predicate SingleBit(s: Status) {
    s != 0 && s & (s - 1) == 0
  }

  /** The members are single flags, pairwise distinct, and no member lies
      in another: each names its own bit. */
  lemma MembersAreSingleFlags()
    ensures forall i :: 0 <= i < |Members| ==> SingleBit(Members[i])
    ensures forall i, j :: 0 <= i < j < |Members| ==> Members[i] != Members[j] && !FlagIn(Members[i], Members[j])
  {
  }

  /** `FINISHED | CANCELLED` holds exactly `FINISHED` and `CANCELLED`
      among the members (the test at ops/rnd_modal.py:51). */
  lemma ExitSetContents()
    ensures forall i :: 0 <= i < |Members| ==>
      (FlagIn(Members[i], FINISHED | CANCELLED) <==> Members[i] == FINISHED || Members[i] == CANCELLED)
  {
  }

  /** An attribute of the operator that may hold a handler: `None` when the
      attribute does not exist, `Some(None)` when it holds something that is
      not a `ShaderHandler`. */
  type HandlerSlot = Option<Option<ShaderHandler>>

  /** The parts of an operator the helpers look at: its `draw_3d` and
      `draw_2d` methods (`None` when it has none) and its two handler
      attributes. */
  datatype OpHandles = OpHandles(draw3d: Option<nat>, draw2d: Option<nat>, handler3d: HandlerSlot, handler2d: HandlerSlot)

  /** The handler a slot holds, if any. */
  function Held(s: HandlerSlot): Option<ShaderHandler> {
    if s.Some? then s.value else None
  }

  /** The registry keys of the handlers the operator holds. */
  function Keys(op: OpHandles): set<Key> {
    (if Held(op.handler3d).Some? then {Held(op.handler3d).value.key} else {}) +
    (if Held(op.handler2d).Some? then {Held(op.handler2d).value.key} else {})
  }

  /** The host draw handles of the handlers the operator holds. */
  function DrawnOf(op: OpHandles): set<DrawHandle> {
    (if Held(op.handler3d).Some? && Held(op.handler3d).value.handle.Some? then {Held(op.handler3d).value.handle.value} else {}) +
    (if Held(op.handler2d).Some? && Held(op.handler2d).value.handle.Some? then {Held(op.handler2d).value.handle.value} else {})
  }

  /** The draw handles the host hands out for the two callbacks. */
  function Answers(answer3d: HostAnswer, answer2d: HostAnswer): set<DrawHandle> {
    (if answer3d.Handle? then {answer3d.handle} else {}) + (if answer2d.Handle? then {answer2d.handle} else {})
  }

  /** `add_shader_handles` (utils/modal.py:26-31): both attributes are set
      to `None` first; then a `POST_VIEW` handler is added for `draw_3d`
      and a `POST_PIXEL` one for `draw_2d`, each only when the method
      exists.  `answer3d`/`answer2d` are what the host does when asked for
      them.  A raise in either `add` leaves the function with what was done
      so far: the state is returned together with the error, so a raise in
      the second `add` leaves the first handler held and registered. */
  function AddShaderHandles(reg: ShaderRegistry, op: OpHandles, ctx: Args, space: SpaceType, regtype: RegionType,
                            answer3d: HostAnswer, answer2d: HostAnswer): (r: (ShaderRegistry, OpHandles, Option<string>))
    requires Wf(reg)
    ensures Wf(r.0) && r.1.handler3d.Some? && r.1.handler2d.Some?
    ensures r.1.draw3d == op.draw3d && r.1.draw2d == op.draw2d
    ensures r.2.Some? <==> (op.draw3d.Some? && answer3d.Raises?) || (op.draw2d.Some? && answer2d.Raises?)
    ensures op.draw3d.Some? && answer3d.Raises? ==> r.2 == Some(answer3d.error) && r.0 == reg
    ensures !(op.draw3d.Some? && answer3d.Raises?) && op.draw2d.Some? && answer2d.Raises? ==> r.2 == Some(answer2d.error)
    ensures Held(r.1.handler3d).Some? <==> op.draw3d.Some? && answer3d.Handle?
    ensures Held(r.1.handler2d).Some? <==> op.draw2d.Some? && answer2d.Handle? && !(op.draw3d.Some? && answer3d.Raises?)
    ensures Held(r.1.handler3d).Some? ==>
      var h := Held(r.1.handler3d).value;
      h.drawtype == POST_VIEW && h.space == space && h.regtype == regtype && h.key !in reg.handlers &&
      h.key in r.0.handlers && r.0.handlers[h.key] == h && h.cbfunc == Callable(op.draw3d.value) &&
      h.handle == Some(answer3d.handle)
    ensures Held(r.1.handler2d).Some? ==>
      var h := Held(r.1.handler2d).value;
      h.drawtype == POST_PIXEL && h.space == space && h.regtype == regtype && h.key !in reg.handlers &&
      h.key in r.0.handlers && r.0.handlers[h.key] == h && h.cbfunc == Callable(op.draw2d.value) &&
      h.handle == Some(answer2d.handle)
    ensures Held(r.1.handler3d).Some? && Held(r.1.handler2d).Some? ==>
      Held(r.1.handler3d).value.key != Held(r.1.handler2d).value.key
    ensures Keys(r.1) !! reg.handlers.Keys && r.0.handlers - Keys(r.1) == reg.handlers
    ensures r.0.drawn == reg.drawn + DrawnOf(r.1) && DrawnOf(r.1) <= Answers(answer3d, answer2d)
  {
    var op0 := op.(handler3d := Some(None), handler2d := Some(None));
    var a3 :=
      if op.draw3d.Some? then Add(reg, Callable(op.draw3d.value), Some(ctx), Member(space), Member(regtype), Member(POST_VIEW), answer3d)
      else Ok((reg, None));
    if a3.Err? then (reg, op0, Some(a3.error))
    else
      var (reg1, h3) := a3.value;
      var op1 := op0.(handler3d := Some(h3));
      var a2 :=
        if op.draw2d.Some? then Add(reg1, Callable(op.draw2d.value), Some(ctx), Member(space), Member(regtype), Member(POST_PIXEL), answer2d)
        else Ok((reg1, None));
      if a2.Err? then (reg1, op1, Some(a2.error))
      else (a2.value.0, op1.(handler2d := Some(a2.value.1)), None)
  }

  /** When the host raises for `draw_2d` after handing out a handle for
      `draw_3d`, the error leaves `add_shader_handles` with the 3D handler
      held by the operator, stored in the table and drawn by the host. */
  lemma SecondRaiseKeepsFirst(reg: ShaderRegistry, op: OpHandles, ctx: Args, space: SpaceType, regtype: RegionType,
                              d3: DrawHandle, e: string)
    requires Wf(reg) && op.draw3d.Some? && op.draw2d.Some?
    ensures AddShaderHandles(reg, op, ctx, space, regtype, Handle(d3), Raises(e)).2 == Some(e)
    ensures Held(AddShaderHandles(reg, op, ctx, space, regtype, Handle(d3), Raises(e)).1.handler2d).None?
    ensures Held(AddShaderHandles(reg, op, ctx, space, regtype, Handle(d3), Raises(e)).1.handler3d).Some?
    ensures Held(AddShaderHandles(reg, op, ctx, space, regtype, Handle(d3), Raises(e)).1.handler3d).value.key
         in AddShaderHandles(reg, op, ctx, space, regtype, Handle(d3), Raises(e)).0.handlers
    ensures AddShaderHandles(reg, op, ctx, space, regtype, Handle(d3), Raises(e)).0.drawn == reg.drawn + {d3}
  {
  }

  /** Removes the handler a slot holds, if it holds one. */
  function RemoveSlot(reg: ShaderRegistry, s: HandlerSlot): (r: (ShaderRegistry, HandlerSlot))
    ensures Wf(reg) ==> Wf(r.0)
    ensures Held(s).None? ==> r == (reg, s)
    ensures Held(s).Some? ==> r.0.handlers == reg.handlers - {Held(s).value.key} && r.1 == Some(Some(Held(s).value.(isValid := false)))
    ensures Held(s).Some? && Held(s).value.handle.Some? ==> r.0.drawn == reg.drawn - {Held(s).value.handle.value}
    ensures !(Held(s).Some? && Held(s).value.handle.Some?) ==> r.0.drawn == reg.drawn
    ensures r.0.nextKey == reg.nextKey
  {
    match Held(s)
    case None => (reg, s)
    case Some(h) =>
      var (g, h1) := Remove(reg, h);
      (g, Some(Some(h1)))
  }

  /** `remove_shader_handles` (utils/modal.py:34-40): calls `remove` on each
      attribute that exists and holds a `ShaderHandler`. */
  function RemoveShaderHandles(reg: ShaderRegistry, op: OpHandles): (r: (ShaderRegistry, OpHandles))
    requires Wf(reg)
    ensures Wf(r.0)
    ensures r.0.handlers == reg.handlers - Keys(op) && r.0.nextKey == reg.nextKey
    ensures r.0.drawn == reg.drawn - DrawnOf(op)
    ensures Held(op.handler3d).Some? ==> Held(r.1.handler3d) == Some(Held(op.handler3d).value.(isValid := false))
    ensures Held(op.handler2d).Some? ==> Held(r.1.handler2d) == Some(Held(op.handler2d).value.(isValid := false))
    ensures Held(op.handler3d).None? ==> r.1.handler3d == op.handler3d
    ensures Held(op.handler2d).None? ==> r.1.handler2d == op.handler2d
  {
    var (g3, s3) := RemoveSlot(reg, op.handler3d);
    var (g2, s2) := RemoveSlot(g3, op.handler2d);
    (g2, op.(handler3d := s3, handler2d := s2))
  }

  /** Attaching and then detaching an operator's handlers gives the
      registry its table back, and the host its draw handles when the ones
      it handed out were new to it, whether or not a host call raised. */
  lemma AddThenRemoveHandles(reg: ShaderRegistry, op: OpHandles, ctx: Args, space: SpaceType, regtype: RegionType,
                             answer3d: HostAnswer, answer2d: HostAnswer)
    requires Wf(reg)
    ensures RemoveShaderHandles(AddShaderHandles(reg, op, ctx, space, regtype, answer3d, answer2d).0,
                                AddShaderHandles(reg, op, ctx, space, regtype, answer3d, answer2d).1).0.handlers
         == reg.handlers
    ensures Answers(answer3d, answer2d) !! reg.drawn ==>
      RemoveShaderHandles(AddShaderHandles(reg, op, ctx, space, regtype, answer3d, answer2d).0,
                          AddShaderHandles(reg, op, ctx, space, regtype, answer3d, answer2d).1).0.drawn
      == reg.drawn
  {
  }
}

=== FILE: ops_modules.dfy ===
/** Operator-path strings and module-name listing (utils/modules.py).  The
    introspection the source performs (`dir(bpy.ops)`, `pkgutil`) becomes
    inputs: `ops` maps each attribute of `bpy.ops` to the attributes of that
    category, and `names` is the list of importable module names. */
module Modules {
  import opened Wrappers
  import opened Strings
  import opened Seqs

  /** A segment the path filter keeps (utils/modules.py:108): non-empty,
      not `bpy` or `ops`, not starting with `_`. */
  predicate Kept(n: string) {
    n != "" && n != "bpy" && n != "ops" && !StartsWith(n, "_")
  }

  /** The list comprehension of utils/modules.py:108: the kept segments,
      each as often as it occurs, in their order. */
  function FilterKept(ps: seq<string>): (r: seq<string>)
    ensures forall i :: 0 <= i < |r| ==> Kept(r[i])
    ensures forall n :: n in r ==> n in ps
    ensures forall n :: n in ps && Kept(n) ==> n in r
    decreases |ps|
  {
    if |ps| == 0 then []
    else
      var rest := FilterKept(ps[1..]);
      if Kept(ps[0]) then [ps[0]] + rest else rest
  }

  /** `FilterKept` is the in-order filter: exactly the kept segments, each
      as often as it occurs, in the order of the path. */
  lemma {:induction false} FilterKeptIsFilter(ps: seq<string>)
    ensures IsFilter(FilterKept(ps), ps, Kept)
    decreases |ps|
  {
    if |ps| > 0 {
      FilterKeptIsFilter(ps[1..]);
      FilterCons(FilterKept(ps[1..]), ps[1..], ps[0], Kept);
      assert ps == [ps[0]] + ps[1..];
    }
  }

  /** The kept segments of a dotted path. */
  function PathNames(path: string): seq<string> {
    FilterKept(Split(path, '.'))
  }

  /** `get_bpy_ops_category_and_operator_names_from_path`
      (utils/modules.py:107-111): the first kept segment if it is a
      category, and the second if it is an operator of that category;
      `''` where the test fails. */
  function CategoryAndOperator(path: string, ops: map<string, set<string>>): (r: (string, string))
    ensures var names := PathNames(path);
      (|names| > 0 && names[0] in ops ==> r.0 == names[0]) &&
      (!(|names| > 0 && names[0] in ops) ==> r.0 == "")
    ensures var names := PathNames(path);
      (r.1 != "" <==> |names| > 1 && r.0 in ops && names[1] in ops[r.0]) &&
      (r.1 != "" ==> r.1 == names[1])
  {
    var names := PathNames(path);
    var category := if |names| > 0 && names[0] in ops then names[0] else "";
    var operator := if |names| > 1 && category in ops && names[1] in ops[category] then names[1] else "";
    (category, operator)
  }

  /** What `get_bpy_ops_py_string` returns: for something that is not an
      `Operator`, the 4-tuple of empty strings; for an operator, its path. */
  datatype PyString = NotOperator | OpPath(path: string)

  /** The separator of an operator's `bl_idname`. */
  const OT: string := "_OT_"

  /** `get_bpy_ops_py_string` (utils/modules.py:143-150).  `idname` is the
      operator's `bl_idname`, `None` when the argument is not an
      `Operator`.  The `bl_idname` is split at the first `_OT_` only; without
      one, unpacking the split raises `ValueError`. */
  function GetBpyOpsPyString(idname: Option<string>): (r: Result<PyString>)
    ensures idname.None? ==> r == Ok(NotOperator)
    ensures idname.Some? ==> (r.Err? <==> forall j :: 0 <= j <= |idname.value| ==> !OccursAt(idname.value, OT, j))
    ensures r.Ok? && r.value.OpPath? ==> StartsWith(r.value.path, "bpy.ops.")
  {
    match idname
    case None => Ok(NotOperator)
    case Some(id) =>
      match SplitOnce(id, OT)
      case None => Err("ValueError")
      case Some((modName, funcName)) => Ok(OpPath("bpy.ops." + Lower(modName) + "." + funcName))
  }

  /** An id `X_OT_y`, whose first `_OT_` ends `X`, gives the path
      `bpy.ops.<lower X>.y`, whatever `y` holds (a later `_OT_`
      included). */
  lemma PyStringOfIdname(x: string, y: string)
    requires forall j :: 0 <= j < |x| ==> !OccursAt(x + OT + y, OT, j)
    ensures GetBpyOpsPyString(Some(x + OT + y)) == Ok(OpPath("bpy.ops." + Lower(x) + "." + y))
  {
    var s := x + OT + y;
    assert OccursAt(s, OT, |x|) by {
      assert s[|x|..|x| + |OT|] == OT;
    }
    var sp := SplitOnce(s, OT);
    assert sp.Some?;
    var (a, b) := sp.value;
    assert |a| == |x| by {
      if |a| < |x| {
        assert OccursAt(s, OT, |a|) by {
          assert s[|a|..|a| + |OT|] == (a + OT + b)[|a|..|a| + |OT|];
        }
      }
    }
    assert a == s[..|x|] == x;
    assert b == s[|x| + |OT|..] == y;
  }

  /** The path `bpy.ops.<category>.<operator>` of a known operator is read
      back as that category and operator, for names that the filter keeps
      and that hold no dot. */
  lemma PathRoundTrip(category: string, operator: string, ops: map<string, set<string>>)
    requires Kept(category) && Kept(operator) && '.' !in category && '.' !in operator
    requires category in ops && operator in ops[category]
    ensures CategoryAndOperator("bpy.ops." + category + "." + operator, ops) == (category, operator)
  {
    OpsPathSplits(category, operator);
    KeptOfOpsPath(category, operator);
  }

  /** The path of an operator splits into its four segments. */
  lemma OpsPathSplits(category: string, operator: string)
    requires '.' !in category && '.' !in operator
    ensures Split("bpy.ops." + category + "." + operator, '.') == ["bpy", "ops", category, operator]
  {
    var ps := ["bpy", "ops", category, operator];
    assert "bpy.ops." + category + "." + operator == Join(ps, '.') by {
      assert Join(ps[3..], '.') == operator;
      assert Join(ps[2..], '.') == category + "." + operator;
      assert Join(ps[1..], '.') == "ops" + "." + category + "." + operator;
    }
    JoinSplit(ps, '.');
  }

  /** The filter drops `bpy` and `ops` and keeps the two names. */
  lemma KeptOfOpsPath(category: string, operator: string)
    requires Kept(category) && Kept(operator)
    ensures FilterKept(["bpy", "ops", category, operator]) == [category, operator]
  {
    var ps := ["bpy", "ops", category, operator];
    assert FilterKept(ps[3..]) == [operator] by {
      assert ps[3..][1..] == [];
    }
    assert FilterKept(ps[2..]) == [category, operator] by {
      assert ps[2..][1..] == ps[3..];
    }
    assert FilterKept(ps[1..]) == [category, operator] by {
      assert ps[1..][1..] == ps[2..];
      assert !Kept("ops");
    }
    assert !Kept("bpy");
  }

  // ----------------------------------------------------------------------
  // Public root module names
  // ----------------------------------------------------------------------

  /** A name `get_public_root_module_names` keeps (utils/modules.py:26):
      not private, not a submodule. */
  predicate IsPublicRoot(n: string) {
    !StartsWith(n, "_") && '.' !in n
  }

  /** No name twice. */
  predicate Distinct(s: seq<string>) {
    forall i, j :: 0 <= i < j < |s| ==> s[i] != s[j]
  }

  /** Ordered by `item.lower()`, as `sorted(..., key=...)` orders. */
  predicate SortedByLower(s: seq<string>) {
    forall i, j :: 0 <= i < j < |s| ==> LexLe(Lower(s[i]), Lower(s[j]))
  }

  /** Inserts a name into a list sorted by lower-cased key: the list gains
      exactly that name, and stays sorted. */
  function Insert(x: string, s: seq<string>): (r: seq<string>)
    requires SortedByLower(s)
    ensures SortedByLower(r) && |r| == |s| + 1
    ensures forall n :: n in r <==> n == x || n in s
    ensures Distinct(s) && x !in s ==> Distinct(r)
    ensures multiset(r) == multiset(s) + multiset{x}
    decreases |s|
  {
    if |s| == 0 then [x]
    else if LexLe(Lower(x), Lower(s[0])) then
      assert SortedByLower([x] + s) by {
        forall j | 0 <= j < |s| ensures LexLe(Lower(x), Lower(s[j])) {
          if j > 0 { LexTrans(Lower(x), Lower(s[0]), Lower(s[j])); }
        }
      }
      [x] + s
    else
      var rest := Insert(x, s[1..]);
      InsertBehind(x, s, rest);
      [s[0]] + rest
  }

  /** The step of `Insert` that keeps the head in front of the insertion
      into the tail. */
  lemma InsertBehind(x: string, s: seq<string>, rest: seq<string>)
    requires |s| > 0 && SortedByLower(s) && !LexLe(Lower(x), Lower(s[0]))
    requires SortedByLower(rest) && |rest| == |s|
    requires forall n :: n in rest <==> n == x || n in s[1..]
    requires Distinct(s[1..]) && x !in s[1..] ==> Distinct(rest)
    requires multiset(rest) == multiset(s[1..]) + multiset{x}
    ensures SortedByLower([s[0]] + rest)
    ensures forall n :: n in [s[0]] + rest <==> n == x || n in s
    ensures Distinct(s) && x !in s ==> Distinct([s[0]] + rest)
    ensures multiset([s[0]] + rest) == multiset(s) + multiset{x}
  {
    assert s == [s[0]] + s[1..];
    assert SortedByLower([s[0]] + rest) by {
      LexTotal(Lower(x), Lower(s[0]));
      forall j | 0 <= j < |rest| ensures LexLe(Lower(s[0]), Lower(rest[j])) {
        if rest[j] != x {
          assert rest[j] in s[1..];
          var k :| 0 <= k < |s[1..]| && s[1..][k] == rest[j];
          assert s[k + 1] == rest[j];
        }
      }
    }
    assert Distinct(s) && x !in s ==> Distinct([s[0]] + rest) by {
      if Distinct(s) && x !in s {
        assert Distinct(s[1..]);
        assert s[0] !in s[1..];
      }
    }
  }

  /** `get_public_root_module_names` (utils/modules.py:24-27): the public
      root names among `names`, each once, sorted case-insensitively.  The
      source sorts a set, so names with the same lower-cased form may come
      in either order; the model promises only the sort key's order. */
  method PublicRootModuleNames(names: seq<string>) returns (r: seq<string>)
    ensures Distinct(r) && SortedByLower(r)
    ensures forall n :: n in r <==> n in names && IsPublicRoot(n)
  {
    r := [];
    var i := 0;
    while i < |names|
      invariant 0 <= i <= |names|
      invariant Distinct(r) && SortedByLower(r)
      invariant forall n :: n in r <==> n in names[..i] && IsPublicRoot(n)
    {
      var n := names[i];
      if IsPublicRoot(n) && n !in r {
        r := Insert(n, r);
      }
      assert names[..i + 1] == names[..i] + [n];
      i := i + 1;
    }
    assert names[..i] == names;
  }
}

=== FILE: props.dfy ===
/** Variable-name formatting and the `name` property's getter and setter
    (utils/props.py:30-46).  A property owner's ID-property storage is a
    map from keys to strings. */
module Props {
  import opened Strings

  /** A character `format_var_name` lets through: `[0-9A-Z_]`. */
  predicate VarChar(c: char) {
    IsDigit(c) || IsUpper(c) || c == '_'
  }

  /** The substitution `re.sub(r'[^0-9A-Z_]', '_', ·)` applies to one
      character. */
  function Sanitize(c: char): (r: char)
    ensures VarChar(r)
    ensures VarChar(c) ==> r == c
    ensures !VarChar(c) ==> r == '_'
  {
    if VarChar(c) then c else '_'
  }

  /** The number of characters `format_var_name` puts in front: one
      underscore exactly when the name starts with a digit. */
  function Shift(name: string): nat {
    if |name| > 0 && IsDigit(name[0]) then 1 else 0
  }

  /** `format_var_name` (utils/props.py:30-35): upper-case, replace every
      character outside `[0-9A-Z_]` by `_`, and put `_` in front of a
      leading digit. */
  function FormatVarName(name: string): (r: string)
    ensures forall i :: 0 <= i < |r| ==> VarChar(r[i])
    ensures |r| > 0 ==> !IsDigit(r[0])
    ensures |r| == |name| + Shift(name)
    ensures r == [] <==> name == []
    ensures Shift(name) == 1 ==> r[0] == '_'
    ensures forall i :: 0 <= i < |name| ==> r[i + Shift(name)] == Sanitize(UpperChar(name[i]))
  {
    var m := seq(|name|, i requires 0 <= i < |name| => Sanitize(UpperChar(name[i])));
    assert |m| > 0 ==> (IsDigit(m[0]) <==> IsDigit(name[0]));
    if |m| > 0 && IsDigit(m[0]) then "_" + m else m
  }

  /** How each input character comes out: lower-case ASCII letters are
      upper-cased rather than replaced, `[0-9A-Z_]` is kept, and anything
      else becomes `_`. */
  lemma FormatCharacters(name: string, i: nat)
    requires i < |name|
    ensures IsLower(name[i]) ==> FormatVarName(name)[i + Shift(name)] == UpperChar(name[i])
    ensures VarChar(name[i]) ==> FormatVarName(name)[i + Shift(name)] == name[i]
    ensures !IsLower(name[i]) && !VarChar(name[i]) ==> FormatVarName(name)[i + Shift(name)] == '_'
  {
  }

  /** A name already made of `[0-9A-Z_]` that does not start with a digit
      is left as it is. */
  lemma FormatFixesValidNames(name: string)
    requires forall i :: 0 <= i < |name| ==> VarChar(name[i])
    requires |name| > 0 ==> !IsDigit(name[0])
    ensures FormatVarName(name) == name
  {
    var r := FormatVarName(name);
    assert Shift(name) == 0;
    forall i | 0 <= i < |name| ensures r[i] == name[i] {
      assert r[i + Shift(name)] == Sanitize(UpperChar(name[i]));
    }
  }

  /** `format_var_name` is idempotent. */
  lemma FormatIdempotent(name: string)
    ensures FormatVarName(FormatVarName(name)) == FormatVarName(name)
  {
    FormatFixesValidNames(FormatVarName(name));
  }

  /** The storage key the property uses. */
  const NAME_KEY: string := "_name"

  /** `get_var_name` (utils/props.py:38-42): the stored name, or `"VAR"`
      when none is stored or it is empty. */
  function GetVarName(store: map<string, string>): (r: string)
    ensures r != ""
    ensures NAME_KEY in store && store[NAME_KEY] != "" ==> r == store[NAME_KEY]
    ensures NAME_KEY !in store || store[NAME_KEY] == "" ==> r == "VAR"
  {
    if NAME_KEY in store && store[NAME_KEY] != "" then store[NAME_KEY] else "VAR"
  }

  /** `set_var_name` (utils/props.py:45-46): stores the formatted name and
      touches no other key. */
  function SetVarName(store: map<string, string>, value: string): (r: map<string, string>)
    ensures NAME_KEY in r && r[NAME_KEY] == FormatVarName(value)
    ensures forall k :: k in store && k != NAME_KEY ==> k in r && r[k] == store[k]
    ensures forall k :: k in r && k != NAME_KEY ==> k in store
  {
    store[NAME_KEY := FormatVarName(value)]
  }

  /** Reading after writing gives the formatted name, or `"VAR"` for the
      empty string; writing back what was read changes nothing. */
  lemma SetThenGet(store: map<string, string>, value: string)
    ensures GetVarName(SetVarName(store, value)) == (if value == "" then "VAR" else FormatVarName(value))
    ensures value != "" ==>
      SetVarName(store, GetVarName(SetVarName(store, value))) == SetVarName(store, value)
  {
    if value != "" {
      FormatIdempotent(value);
    }
  }
}

=== FILE: rnd_modal.dfy ===
/** The R&D modal operator (`KBT_OT_RND_Modal`, ops/rnd_modal.py): a status
    machine that runs until `ESC` or `RET` is pressed, with its two draw
    callbacks attached while it runs. */
module RndModal {
  import opened Wrappers
  import opened Blender
  import opened Handlers
  import ModalUtils

  /** The callback ids of the operator's `draw_3d` and `draw_2d` methods
      (ops/rnd_modal.py:70-75); it defines both. */
  const DRAW_3D: nat := 0
  const DRAW_2D: nat := 1

  /** The operator's state: its status and its handler attributes. */
  datatype RndOp = RndOp(status: ModalUtils.Status, handles: ModalUtils.OpHandles)

  /** The host's answer for the 3D view's window region, which always has
      draw handlers: a handle, or a falsy value; it does not raise. */
  function Answer(a: Option<DrawHandle>): (r: HostAnswer)
    ensures !r.Raises? && Stored(r) == a
  {
    if a.Some? then Handle(a.value) else Falsy
  }

  /** `invoke` (ops/rnd_modal.py:31-38): status `RUNNING`, both draw
      callbacks attached to the 3D view's window region. */
  function Invoke(reg: ShaderRegistry, ctx: Args, answer3d: Option<DrawHandle>, answer2d: Option<DrawHandle>): (r: (ShaderRegistry, RndOp, OpReturn))
    requires Wf(reg)
    ensures Wf(r.0) && r.2 == RUNNING_MODAL && r.1.status == ModalUtils.RUNNING
    ensures ModalUtils.Held(r.1.handles.handler3d).Some? <==> answer3d.Some?
    ensures ModalUtils.Held(r.1.handles.handler2d).Some? <==> answer2d.Some?
    ensures ModalUtils.Keys(r.1.handles) !! reg.handlers.Keys
    ensures r.0.handlers - ModalUtils.Keys(r.1.handles) == reg.handlers
    ensures r.0.drawn == reg.drawn + ModalUtils.DrawnOf(r.1.handles)
    ensures ModalUtils.DrawnOf(r.1.handles) <= ModalUtils.Answers(Answer(answer3d), Answer(answer2d))
  {
    var op := ModalUtils.OpHandles(Some(DRAW_3D), Some(DRAW_2D), None, None);
    var (g, h, _) := ModalUtils.AddShaderHandles(reg, op, ctx, VIEW_3D, WINDOW, Answer(answer3d), Answer(answer2d));
    (g, RndOp(ModalUtils.RUNNING, h), RUNNING_MODAL)
  }

  /** The status an event leaves (ops/rnd_modal.py:43-49): reset to
      `RUNNING`, then `CANCELLED` on a pressed `ESC`, `FINISHED` on a
      pressed `RET`. */
  function NextStatus(ev: Event): (s: ModalUtils.Status)
    ensures s == ModalUtils.CANCELLED <==> ev.evType == "ESC" && ev.value == "PRESS"
    ensures s == ModalUtils.FINISHED <==> ev.evType == "RET" && ev.value == "PRESS"
    ensures s == ModalUtils.RUNNING || s == ModalUtils.CANCELLED || s == ModalUtils.FINISHED
  {
    if ev.evType == "ESC" && ev.value == "PRESS" then ModalUtils.CANCELLED
    else if ev.evType == "RET" && ev.value == "PRESS" then ModalUtils.FINISHED
    else ModalUtils.RUNNING
  }

  /** `close` (ops/rnd_modal.py:57-63): detaches the handlers, then reports
      `CANCELLED` for a cancelled status and `FINISHED` for any other. */
  function Close(reg: ShaderRegistry, op: RndOp): (r: (ShaderRegistry, RndOp, OpReturn))
    requires Wf(reg)
    ensures Wf(r.0) && r.0.handlers == reg.handlers - ModalUtils.Keys(op.handles)
    ensures r.0.drawn == reg.drawn - ModalUtils.DrawnOf(op.handles)
    ensures r.1.status == op.status
    ensures r.2 == CANCELLED <==> op.status == ModalUtils.CANCELLED
    ensures r.2 != RUNNING_MODAL
  {
    var (g, h) := ModalUtils.RemoveShaderHandles(reg, op.handles);
    (g, op.(handles := h), if op.status == ModalUtils.CANCELLED then CANCELLED else FINISHED)
  }

  /** `modal` (ops/rnd_modal.py:41-54): a pressed `ESC` cancels, a pressed
      `RET` finishes, both through `close`; every other event, `ESC` or
      `RET` released included, keeps the operator running and the registry
      as it was. */
  function Modal(reg: ShaderRegistry, op: RndOp, ev: Event): (r: (ShaderRegistry, RndOp, OpReturn))
    requires Wf(reg)
    ensures Wf(r.0)
    ensures r.2 == CANCELLED <==> ev.evType == "ESC" && ev.value == "PRESS"
    ensures r.2 == FINISHED <==> ev.evType == "RET" && ev.value == "PRESS"
    ensures r.2 == RUNNING_MODAL ==> r.0 == reg && r.1 == op.(status := ModalUtils.RUNNING)
    ensures r.2 != RUNNING_MODAL ==> r.0.handlers == reg.handlers - ModalUtils.Keys(op.handles)
    ensures r.2 != RUNNING_MODAL ==> r.0.drawn == reg.drawn - ModalUtils.DrawnOf(op.handles)
  {
    var status := NextStatus(ev);
    var op1 := op.(status := status);
    if ModalUtils.FlagIn(status, ModalUtils.FINISHED | ModalUtils.CANCELLED) then Close(reg, op1)
    else (reg, op1, RUNNING_MODAL)
  }

  /** What `modal` does does not depend on the status left by an earlier
      event: every call resets it first (ops/rnd_modal.py:43). */
  lemma ModalForgetsStatus(reg: ShaderRegistry, op: RndOp, s: ModalUtils.Status, ev: Event)
    requires Wf(reg)
    ensures Modal(reg, op, ev) == Modal(reg, op.(status := s), ev)
  {
  }

  /** A run that is invoked and then sees a pressed `ESC` or `RET` leaves
      the handler table as it found it, and the host's draw handles too when
      the ones it handed out were new to it: no callback of the operator is
      drawn after it exits. */
  lemma InvokeThenExit(reg: ShaderRegistry, ctx: Args, answer3d: Option<DrawHandle>, answer2d: Option<DrawHandle>, ev: Event)
    requires Wf(reg)
    requires (ev.evType == "ESC" || ev.evType == "RET") && ev.value == "PRESS"
    ensures Modal(Invoke(reg, ctx, answer3d, answer2d).0, Invoke(reg, ctx, answer3d, answer2d).1, ev).0.handlers == reg.handlers
    ensures Modal(Invoke(reg, ctx, answer3d, answer2d).0, Invoke(reg, ctx, answer3d, answer2d).1, ev).2 != RUNNING_MODAL
    ensures ModalUtils.Answers(Answer(answer3d), Answer(answer2d)) !! reg.drawn ==>
      Modal(Invoke(reg, ctx, answer3d, answer2d).0, Invoke(reg, ctx, answer3d, answer2d).1, ev).0.drawn == reg.drawn
  {
    var i := Invoke(reg, ctx, answer3d, answer2d);
    ExitDetaches(reg, i.0, i.1, ev);
  }

  /** An exiting event on an operator whose handlers were attached to `reg`
      detaches them all again. */
  lemma ExitDetaches(reg: ShaderRegistry, g: ShaderRegistry, op: RndOp, ev: Event)
    requires Wf(g) && (ev.evType == "ESC" || ev.evType == "RET") && ev.value == "PRESS"
    ensures Modal(g, op, ev).2 != RUNNING_MODAL
    ensures g.handlers - ModalUtils.Keys(op.handles) == reg.handlers ==> Modal(g, op, ev).0.handlers == reg.handlers
    ensures g.drawn == reg.drawn + ModalUtils.DrawnOf(op.handles) && ModalUtils.DrawnOf(op.handles) !! reg.drawn ==>
      Modal(g, op, ev).0.drawn == reg.drawn
  {
    var d := ModalUtils.DrawnOf(op.handles);
    if g.drawn == reg.drawn + d && d !! reg.drawn {
      assert (reg.drawn + d) - d == reg.drawn;
    }
  }
}

=== FILE: screen.dfy ===
/** `point_within_region` (utils/screen.py:17-24): whether a point lies in a
    region of the window.  A region's corner and size are integers. */
module Screen {
  import opened Wrappers
  import Labels

  /** A `bpy.types.Region`'s placement. */
  datatype Region = Region(x: int, y: int, width: int, height: int)

  /** `point_within_region`: the arguments are `None` when they are not a
      `Vector` and a `Region`; then the answer is false.  Edges count as
      inside. */
  function PointWithinRegion(point: Option<Labels.Vec>, region: Option<Region>): (r: bool)
    ensures point.None? || region.None? ==> !r
    ensures r ==> point.value.x >= region.value.x as real && point.value.y >= region.value.y as real
  {
    if point.Some? && region.Some? then
      var p := point.value;
      var g := region.value;
      if p.x >= g.x as real then
        if p.x <= (g.x + g.width) as real then
          if p.y >= g.y as real then p.y <= (g.y + g.height) as real
          else false
        else false
      else false
    else false
  }

  /** The rectangle a region covers, as label bounds. */
  function RegionBounds(g: Region): Labels.Bounds {
    Labels.Bounds(g.x as real, g.y as real, g.width as real, g.height as real)
  }

  /** The region test agrees with the widget rectangle test: a point is in
      a region exactly when it is in the region's bounds. */
  lemma AgreesWithBounds(p: Labels.Vec, g: Region)
    ensures PointWithinRegion(Some(p), Some(g)) == Labels.TestPointIntersect(RegionBounds(g), p)
  {
  }

  /** A point left of, right of, below or above the region is outside it. */
  lemma OutsideEdges(p: Labels.Vec, g: Region)
    ensures p.x < g.x as real ==> !PointWithinRegion(Some(p), Some(g))
    ensures p.x > (g.x + g.width) as real ==> !PointWithinRegion(Some(p), Some(g))
    ensures p.y < g.y as real ==> !PointWithinRegion(Some(p), Some(g))
    ensures p.y > (g.y + g.height) as real ==> !PointWithinRegion(Some(p), Some(g))
  {
  }
}

=== FILE: seqs.dfy ===
/** Order-preserving selection from sequences: the shape of a Python list
    comprehension with an `if`, of deleting keys from an insertion-ordered
    table, and of `list.remove`. */
module Seqs {

  /** `a` is `b` with some elements left out and the rest in their order. */
  predicate Subseq<T(==)>(a: seq<T>, b: seq<T>)
    decreases |b|
  {
    |a| == 0 || (|b| > 0 && ((a[0] == b[0] && Subseq(a[1..], b[1..])) || Subseq(a, b[1..])))
  }

  /** `r` holds exactly the elements of `s` that satisfy `p`, each as often
      as it occurs in `s`, in the order of `s`. */
  ghost predicate IsFilter<T(!new)>(r: seq<T>, s: seq<T>, p: T -> bool) {
    Subseq(r, s) && forall x :: multiset(r)[x] == (if p(x) then multiset(s)[x] else 0)
  }

  /** Filtering one more element at the front. */
  lemma FilterCons<T(!new)>(r: seq<T>, s: seq<T>, x: T, p: T -> bool)
    requires IsFilter(r, s, p)
    ensures IsFilter(if p(x) then [x] + r else r, [x] + s, p)
  {
    assert ([x] + s)[1..] == s;
    if p(x) {
      assert ([x] + r)[1..] == r;
    }
  }

  /** A subsequence holds no element more often than the sequence. */
  lemma {:induction false} SubseqMultiset<T>(a: seq<T>, b: seq<T>)
    requires Subseq(a, b)
    ensures multiset(a) <= multiset(b)
    decreases |b|
  {
    if |a| > 0 {
      assert b == [b[0]] + b[1..];
      if a[0] == b[0] && Subseq(a[1..], b[1..]) {
        SubseqMultiset(a[1..], b[1..]);
        assert a == [a[0]] + a[1..];
      } else {
        SubseqMultiset(a, b[1..]);
      }
    }
  }

  /** The filter is determined by the sequence and the test: two results
      that both satisfy `IsFilter` are equal. */
  lemma {:induction false} FilterUnique<T(!new)>(r1: seq<T>, r2: seq<T>, s: seq<T>, p: T -> bool)
    requires IsFilter(r1, s, p) && IsFilter(r2, s, p)
    ensures r1 == r2
    decreases |s|
  {
    if |s| == 0 {
    } else {
      var x := s[0];
      assert s == [x] + s[1..];
      var t1 := FilterTail(r1, s, p);
      var t2 := FilterTail(r2, s, p);
      FilterUnique(t1, t2, s[1..], p);
    }
  }

  /** Peeling the first element of `s` off a filter of `s`: what is left
      is the filter of the rest, after the element itself when it passes. */
  lemma FilterTail<T(!new)>(r: seq<T>, s: seq<T>, p: T -> bool) returns (t: seq<T>)
    requires |s| > 0 && IsFilter(r, s, p)
    ensures IsFilter(t, s[1..], p)
    ensures r == (if p(s[0]) then [s[0]] + t else t)
  {
    var x := s[0];
    assert s == [x] + s[1..];
    assert multiset(s)[x] == multiset(s[1..])[x] + 1;
    if p(x) {
      if !(|r| > 0 && r[0] == x && Subseq(r[1..], s[1..])) {
        SubseqMultiset(r, s[1..]);
        assert false;
      }
      t := r[1..];
      assert r == [x] + t;
      forall y ensures multiset(t)[y] == (if p(y) then multiset(s[1..])[y] else 0) {
        assert multiset(r)[y] == multiset(t)[y] + (if y == x then 1 else 0);
      }
    } else {
      if |r| > 0 && r[0] == x {
        assert false;
      }
      t := r;
    }
  }

  /** The position of the first occurrence of `x` in `l`. */
  function FirstIndex<T(==)>(l: seq<T>, x: T): (i: nat)
    requires x in l
    ensures i < |l| && l[i] == x && x !in l[..i]
  {
    if l[0] == x then 0
    else
      var j := FirstIndex(l[1..], x);
      assert l[..j + 1] == [l[0]] + l[1..][..j];
      j + 1
  }
}

=== FILE: simple_modal.dfy ===
/** The modal bevel tool built on the mesh-edit session
    (`SimpleModalOperator`, ops/demo.py:196-287).  Every frame validates the
    session, accumulates the mouse's x movement into the bevel offset,
    restores the clean base and bevels it again, so edits never pile up.
    Any failure, the `'ESC'` key included, closes the session with revert. */
module SimpleModal {
  import opened Wrappers
  import opened Blender
  import opened MeshEditor

  /** The host's geometry services, opaque to the model: `bmesh.ops.bevel`
      with the tool's fixed settings, and whether any edge of a mesh is
      selected. */
  datatype Geometry = Geometry(bevel: (Content, int) -> Content, hasSelectedEdges: Content -> bool)

  /** The operator's fields: the session with its host, the last mouse x,
      the accumulated bevel offset, the recorded mouse path and whether
      its 2D overlay callback is registered. */
  datatype ModalOp = ModalOp(w: World, prevMouse: int, bevelWidth: int, mousePath: seq<(int, int)>, overlay: bool)

  /** What one `modal` call leaves: the tool keeps running, or it has ended
      with the given return status and the host the closed session left. */
  datatype Frame = Running(op: ModalOp) | Ended(ret: OpReturn, host: Host, overlay: bool)

  /** The context `poll` admits the tool in (ops/demo.py:200-202): the mode
      is `'EDIT_MESH'`, so the edit object is a mesh in edit mode. */
  predicate EditMesh(host: Host) {
    host.target.Some? && host.target.value.objType == "MESH" && host.target.value.editMode
  }

  /** `invoke` (ops/demo.py:204-218): offset zero, mouse remembered,
      overlay registered, a new session on the edit object. */
  function Invoke(host: Host, ev: Event): (r: (ModalOp, OpReturn))
    requires EditMesh(host) && host.target.value.uid < host.nextUid
    ensures r.1 == RUNNING_MODAL && Wf(r.0.w)
    ensures r.0.bevelWidth == 0 && r.0.prevMouse == ev.x && r.0.mousePath == [] && r.0.overlay
    ensures Begin(host).Ok? && r.0.w == Begin(host).value
  {
    (ModalOp(Begin(host).value, ev.x, 0, [], true), RUNNING_MODAL)
  }

  /** The content the frame bevels: the session's restore point. */
  function Base(w: World): Content
    requires Wf(w) && IdentityIntact(w)
  {
    w.host.meshes[RestorePoint(w.ed)].value.content
  }

  /** The operator's `update` (ops/demo.py:246-287): validate, accumulate the
      offset, restore, give up when no edge is selected, bevel, update. */
  function FrameUpdate(op: ModalOp, ev: Event, geo: Geometry): (r: (bool, ModalOp))
    requires Wf(op.w)
    ensures Wf(r.1.w) && r.1.mousePath == op.mousePath && r.1.overlay == op.overlay
    ensures r.1.w.ed == op.w.ed.(bm := r.1.w.ed.bm)
    ensures r.1.w.host.meshes == op.w.host.meshes && r.1.w.host.nextUid == op.w.host.nextUid
    ensures r.1.bevelWidth - r.1.prevMouse == op.bevelWidth - op.prevMouse
    ensures Usable(op.w) ==> r.1.prevMouse == ev.x
    ensures !Usable(op.w) ==> r.1.prevMouse == op.prevMouse && r.1.w.host == op.w.host
    ensures r.0 <==> Usable(op.w) && geo.hasSelectedEdges(Base(op.w))
    ensures r.1.w.host.target.Some? == op.w.host.target.Some?
    ensures op.w.host.target.Some? ==>
      r.1.w.host.target.value == op.w.host.target.value.(mesh := r.1.w.host.target.value.mesh)
    ensures r.0 && op.w.host.target.value.editMode ==>
      Mirrors(r.1.w) && r.1.w.host.target.value.mesh == geo.bevel(Base(op.w), r.1.bevelWidth)
    ensures r.0 && !op.w.host.target.value.editMode ==> r.1.w.host == op.w.host
  {
    var v := Validator(op.w);
    if !v.ok then (false, op.(w := v.w))
    else
      var width := op.bevelWidth + ev.x - op.prevMouse;
      var rs := Restore(v.w);
      if !rs.ok then (false, op.(w := rs.w, bevelWidth := width, prevMouse := ev.x))
      else
        var base := LiveContent(rs.w);
        if !geo.hasSelectedEdges(base) then
          (false, op.(w := rs.w, bevelWidth := width, prevMouse := ev.x))
        else
          var u := Update(SetLive(rs.w, geo.bevel(base, width)));
          (true, op.(w := u.w, bevelWidth := width, prevMouse := ev.x))
  }

  /** The operator's `close` (ops/demo.py:236-244): removes the overlay,
      closes the session with revert, and cancels. */
  function CloseOp(op: ModalOp): (r: Frame)
    requires Wf(op.w)
    ensures r.Ended? && r.ret == CANCELLED && !r.overlay
    ensures r.host == Close(op.w, true)
  {
    Ended(CANCELLED, Close(op.w, true), false)
  }

  /** `modal` (ops/demo.py:220-234): a failed frame or `'ESC'` closes the
      tool; a mouse move is recorded; the tool keeps running otherwise. */
  function Modal(op: ModalOp, ev: Event, geo: Geometry): (r: Frame)
    requires Wf(op.w)
    ensures r.Ended? <==> !FrameUpdate(op, ev, geo).0 || ev.evType == "ESC"
    ensures r.Ended? ==> r.ret == CANCELLED && !r.overlay && r.host == Close(FrameUpdate(op, ev, geo).1.w, true)
    ensures r.Running? ==> Wf(r.op.w) && r.op.prevMouse == ev.x
    ensures r.Running? ==> r.op.bevelWidth - r.op.prevMouse == op.bevelWidth - op.prevMouse
    ensures r.Running? && ev.evType == "MOUSEMOVE" ==> r.op.mousePath == op.mousePath + [(ev.x, ev.y)]
    ensures r.Running? && ev.evType != "MOUSEMOVE" ==> r.op.mousePath == op.mousePath
  {
    var (ok, op1) := FrameUpdate(op, ev, geo);
    if !ok then CloseOp(op1)
    else if ev.evType == "MOUSEMOVE" then Running(op1.(mousePath := op1.mousePath + [(ev.x, ev.y)]))
    else if ev.evType == "ESC" then CloseOp(op1)
    else Running(op1)
  }

  /** A sequence of events fed to `modal` until the tool ends. */
  function Run(op: ModalOp, evs: seq<Event>, geo: Geometry): (r: Frame)
    requires Wf(op.w)
    ensures r.Running? ==> Wf(r.op.w)
    decreases |evs|
  {
    if |evs| == 0 then Running(op)
    else
      match Modal(op, evs[0], geo)
      case Ended(ret, host, overlay) => Ended(ret, host, overlay)
      case Running(next) => Run(next, evs[1..], geo)
  }

  /** The offset telescopes: while the tool runs, it is the last mouse x
      minus the mouse x it started from (ops/demo.py:207-208, 252-253). */
  lemma {:induction false} OffsetTelescopes(op: ModalOp, evs: seq<Event>, geo: Geometry)
    requires Wf(op.w)
    ensures Run(op, evs, geo).Running? ==>
      Run(op, evs, geo).op.bevelWidth == op.bevelWidth + Run(op, evs, geo).op.prevMouse - op.prevMouse
    ensures Run(op, evs, geo).Running? && |evs| > 0 ==> Run(op, evs, geo).op.prevMouse == evs[|evs| - 1].x
    decreases |evs|
  {
    if |evs| > 0 {
      var f := Modal(op, evs[0], geo);
      if f.Running? {
        OffsetTelescopes(f.op, evs[1..], geo);
        if |evs| > 1 {
          assert evs[1..][|evs[1..]| - 1] == evs[|evs| - 1];
        }
      }
    }
  }

  /** No run of a tool started by `invoke` survives its first event: every
      non-empty run ends cancelled, with the target as it was and only the
      original snapshot's slot added and freed.  So the offset of
      `OffsetTelescopes` is never observed on a tool `invoke` started. */
  lemma InvokedRunEnds(host: Host, ev0: Event, evs: seq<Event>, geo: Geometry)
    requires EditMesh(host) && host.target.value.uid < host.nextUid && |evs| > 0
    ensures Run(Invoke(host, ev0).0, evs, geo).Ended?
    ensures Run(Invoke(host, ev0).0, evs, geo).ret == CANCELLED
    ensures Run(Invoke(host, ev0).0, evs, geo).host.target == host.target
    ensures Run(Invoke(host, ev0).0, evs, geo).host.meshes == host.meshes + [None]
  {
    FirstEventCancels(host, ev0, evs[0], geo);
  }

  /** Frames do not accumulate: after two successful frames in edit mode,
      the target is the base beveled once, by the offset of the second
      frame, whatever the first frame did (ops/demo.py:255-285). */
  lemma NoAccumulation(op: ModalOp, e1: Event, e2: Event, geo: Geometry)
    requires Wf(op.w) && FrameUpdate(op, e1, geo).0
    requires FrameUpdate(FrameUpdate(op, e1, geo).1, e2, geo).0
    requires op.w.host.target.value.editMode
    ensures FrameUpdate(FrameUpdate(op, e1, geo).1, e2, geo).1.w.host.target.value.mesh
         == geo.bevel(Base(op.w), op.bevelWidth + e2.x - op.prevMouse)
  {
    var f1 := FrameUpdate(op, e1, geo).1;
    assert RestorePoint(f1.w.ed) == RestorePoint(op.w.ed);
  }

  /** The tool as written never edits anything: the session it creates has
      no live BMesh, so the first event fails validation and closes the
      tool with revert; the target keeps its mesh and the original snapshot
      is freed again (ops/demo.py:63, 89-90, 224-225). */
  lemma FirstEventCancels(host: Host, ev0: Event, ev: Event, geo: Geometry)
    requires EditMesh(host) && host.target.value.uid < host.nextUid
    ensures Modal(Invoke(host, ev0).0, ev, geo).Ended?
    ensures Modal(Invoke(host, ev0).0, ev, geo).ret == CANCELLED
    ensures Modal(Invoke(host, ev0).0, ev, geo).host.target == host.target
    ensures Modal(Invoke(host, ev0).0, ev, geo).host.meshes == host.meshes + [None]
  {
    var w := Begin(host).value;
    var m := |host.meshes|;
    assert w.ed.og == m;
    var c := Modal(Invoke(host, ev0).0, ev, geo).host;
    assert c.meshes[..m] == host.meshes;
    assert !Live(c, m);
  }
}

=== FILE: strings.dfy ===
/** The parts of Python's `str` the helpers rely on: ASCII case mapping,
    `split` on one character and on a separator's first occurrence, prefix
    tests, and the code-point order `<` uses on strings. */
module Strings {
  import opened Wrappers

  /** `c.isdigit()` for the ASCII digits. */
  predicate IsDigit(c: char) {
    '0' <= c <= '9'
  }

  predicate IsUpper(c: char) {
    'A' <= c <= 'Z'
  }

  predicate IsLower(c: char) {
    'a' <= c <= 'z'
  }

  /** `c.upper()` on one character; only ASCII letters change. */
  function UpperChar(c: char): (r: char)
    ensures IsLower(c) ==> IsUpper(r) && r as int == c as int - 32
    ensures !IsLower(c) ==> r == c
  {
    if IsLower(c) then (c as int - 32) as char else c
  }

  /** `c.lower()` on one character; only ASCII letters change. */
  function LowerChar(c: char): (r: char)
    ensures IsUpper(c) ==> IsLower(r) && r as int == c as int + 32
    ensures !IsUpper(c) ==> r == c
  {
    if IsUpper(c) then (c as int + 32) as char else c
  }

  /** `s.upper()`, character by character. */
  function Upper(s: string): (r: string)
    ensures |r| == |s| && forall i :: 0 <= i < |s| ==> r[i] == UpperChar(s[i])
  {
    seq(|s|, i requires 0 <= i < |s| => UpperChar(s[i]))
  }

  /** `s.lower()`, character by character. */
  function Lower(s: string): (r: string)
    ensures |r| == |s| && forall i :: 0 <= i < |s| ==> r[i] == LowerChar(s[i])
  {
    seq(|s|, i requires 0 <= i < |s| => LowerChar(s[i]))
  }

  /** `s.startswith(p)`. */
  predicate StartsWith(s: string, p: string) {
    |p| <= |s| && s[..|p|] == p
  }

  /** `s.split(c)`: the pieces between occurrences of `c`, empty pieces
      included, so there is always at least one. */
  function Split(s: string, c: char): (r: seq<string>)
    ensures |r| >= 1
    ensures forall i :: 0 <= i < |r| ==> c !in r[i]
    decreases |s|
  {
    if |s| == 0 then [""]
    else if s[0] == c then [""] + Split(s[1..], c)
    else
      var rest := Split(s[1..], c);
      [[s[0]] + rest[0]] + rest[1..]
  }

  /** `c.join(ps)`. */
  function Join(ps: seq<string>, c: char): string
    requires |ps| >= 1
    decreases |ps|
  {
    if |ps| == 1 then ps[0] else ps[0] + [c] + Join(ps[1..], c)
  }

  /** Joining the pieces of a split gives the string back. */
  lemma {:induction false} SplitJoin(s: string, c: char)
    ensures Join(Split(s, c), c) == s
    decreases |s|
  {
    if |s| > 0 {
      SplitJoin(s[1..], c);
      var rest := Split(s[1..], c);
      if s[0] == c {
        assert Split(s, c)[1..] == rest;
        assert s == [c] + s[1..];
      } else {
        var ps := Split(s, c);
        if |rest| == 1 {
          assert s == [s[0]] + s[1..];
        } else {
          assert ps[1..] == rest[1..];
          assert Join(rest, c) == rest[0] + [c] + Join(rest[1..], c);
          assert s == [s[0]] + s[1..];
        }
      }
    }
  }

  /** Splitting a join of pieces free of the separator gives the pieces
      back. */
  lemma {:induction false} JoinSplit(ps: seq<string>, c: char)
    requires |ps| >= 1 && forall i :: 0 <= i < |ps| ==> c !in ps[i]
    ensures Split(Join(ps, c), c) == ps
    decreases |ps|, |ps[0]|
  {
    if |ps[0]| == 0 {
      if |ps| > 1 {
        JoinSplit(ps[1..], c);
        assert Join(ps, c) == [c] + Join(ps[1..], c);
        assert (([c] + Join(ps[1..], c))[1..]) == Join(ps[1..], c);
        assert ps == [""] + ps[1..];
      }
    } else {
      var x := ps[0][0];
      var qs := [ps[0][1..]] + ps[1..];
      assert x != c by { assert x == ps[0][0] && ps[0][0] in ps[0]; }
      assert forall i :: 0 <= i < |qs| ==> c !in qs[i] by {
        forall i | 0 <= i < |qs| ensures c !in qs[i] {
          if i == 0 {
            assert forall k :: 0 <= k < |ps[0][1..]| ==> ps[0][1..][k] == ps[0][k + 1];
          } else {
            assert qs[i] == ps[i];
          }
        }
      }
      JoinSplit(qs, c);
      JoinCons(ps, qs, c);
      var s := Join(ps, c);
      assert s[0] == x && s[1..] == Join(qs, c);
      var rest := Split(s[1..], c);
      assert rest == qs;
      assert [[x] + rest[0]] + rest[1..] == ps by {
        assert [x] + ps[0][1..] == ps[0];
        assert rest[1..] == ps[1..];
      }
    }
  }

  /** Moving the first character of the first piece outside the join. */
  lemma JoinCons(ps: seq<string>, qs: seq<string>, c: char)
    requires |ps| >= 1 && |ps[0]| > 0 && qs == [ps[0][1..]] + ps[1..]
    ensures |Join(ps, c)| > 0 && Join(ps, c)[0] == ps[0][0] && Join(ps, c)[1..] == Join(qs, c)
  {
    if |ps| == 1 {
    } else {
      assert qs[1..] == ps[1..];
      assert Join(qs, c) == qs[0] + [c] + Join(ps[1..], c);
      assert ps[0] == [ps[0][0]] + ps[0][1..];
    }
  }

  /** `sep` occurs in `s` at position `j`. */
  predicate OccursAt(s: string, sep: string, j: nat) {
    j + |sep| <= |s| && s[j..j + |sep|] == sep
  }

  /** The position of the first occurrence of `sep` in `s` at or after
      `from`, if any. */
  function FindFrom(s: string, sep: string, from: nat): (r: Option<nat>)
    requires from <= |s|
    ensures r.Some? ==> from <= r.value && OccursAt(s, sep, r.value) &&
                        forall j :: from <= j < r.value ==> !OccursAt(s, sep, j)
    ensures r.None? ==> forall j :: from <= j <= |s| ==> !OccursAt(s, sep, j)
    decreases |s| - from
  {
    if OccursAt(s, sep, from) then Some(from)
    else if from == |s| then None
    else FindFrom(s, sep, from + 1)
  }

  /** `s.split(sep, 1)` for a non-empty separator: the text before and
      after its first occurrence, or `None` when it does not occur (Python
      then gives a one-element list). */
  function SplitOnce(s: string, sep: string): (r: Option<(string, string)>)
    requires |sep| > 0
    ensures r.Some? ==> s == r.value.0 + sep + r.value.1
    ensures r.Some? ==> forall j :: 0 <= j < |r.value.0| ==> !OccursAt(s, sep, j)
    ensures r.None? <==> forall j :: 0 <= j <= |s| ==> !OccursAt(s, sep, j)
  {
    match FindFrom(s, sep, 0)
    case None => None
    case Some(i) =>
      assert s == s[..i] + s[i..i + |sep|] + s[i + |sep|..];
      Some((s[..i], s[i + |sep|..]))
  }

  /** `a <= b` on Python strings: code-point lexicographic order. */
  predicate LexLe(a: string, b: string)
    decreases |a|
  {
    |a| == 0 || (|b| > 0 && (a[0] < b[0] || (a[0] == b[0] && LexLe(a[1..], b[1..]))))
  }

  /** Any two strings are comparable. */
  lemma {:induction false} LexTotal(a: string, b: string)
    ensures LexLe(a, b) || LexLe(b, a)
    decreases |a|
  {
    if |a| > 0 && |b| > 0 && a[0] == b[0] {
      LexTotal(a[1..], b[1..]);
    }
  }

  /** The order is transitive. */
  lemma {:induction false} LexTrans(a: string, b: string, c: string)
    requires LexLe(a, b) && LexLe(b, c)
    ensures LexLe(a, c)
    decreases |a|
  {
    if |a| > 0 && a[0] == b[0] && b[0] == c[0] {
      LexTrans(a[1..], b[1..], c[1..]);
    }
  }
}

=== FILE: wrappers.dfy ===
/** Failure-carrying values shared by every module of the model. */
module Wrappers {

  /** An optional value; `None` also stands for a Python value of the wrong
      kind where the source tests `isinstance` before using an argument. */
  datatype Option<+T> = None | Some(value: T)

  /** The outcome of an operation that the source may abandon by raising. */
  datatype Result<+T> = Ok(value: T) | Err(error: string)
}
